=== FILE: README.md ===
# Laravel agent: a Dafny model of the chat relay, demo endpoints, article rules and chat client

This project models the logic in four places of a Laravel application:

- **the agent chat endpoint** (`AgentController`). It resolves the provider/model pair from the session, with a write-back fallback. It builds the upstream message list from the last three history entries. It relays the upstream LLM event stream as server-sent-event (SSE) frames: `test`, then `delta` / `tool_call` / `tool_result`, then one `done` or `error`. It also provides the `search_articles` tool that the model may call.
- **the OpenRouter demo endpoints** (`OpenRouterDemoController`). These are the settings page and its validated save, one-shot text generation, and a streaming relay that passes text deltas only.
- **the article controller** (`ArticleController`). This covers the admin-or-owner rule, the index listing, and the unique-slug loops of `store` and `update`, on an article table updated in place.
- **the chat page's submit handler** (the script of `resources/views/agent/chat.blade.php`). It keeps `conversationHistory` and `isProcessing`, posts the request, splits each body chunk on newlines, and dispatches `data: ` lines by frame type.

How the model represents the system:

- The session is a `map<string, string>` held by `Session.Store`.
- The upstream LLM stream is a `Script`: the events it yields, then how it ends (`Exhausted`, or `Fault(message)` for an exception).
- An SSE frame is a value of the datatype `Sse.Frame`. The JSON encoder and parser are parameters.
- The `articles` table is a sequence of rows in the class `Articles.ArticleTable`.
- The chat page is the class `ChatClient.ChatPage`.
- Loops in the source are methods with loops, proved against recursive specification functions. Properties that relate several calls are lemmas.

`EndToEnd` joins the pieces:

- The page reads the agent's wire text, grouped into chunks of whole frames. It then ends not busy. If the stream ended normally, its history has grown by exactly the user turn and one assistant turn holding the streamed text. If the stream faulted, it has grown by the user turn alone.
- For values as posted by the page, the agent never finds a history entry without content.
- A pair saved on the settings page is the pair the agent uses, except for the model `"0"`. The form accepts it, but the agent treats it as unset and resets both values.

Behaviour of the code that is easy to misread:

- Every history entry becomes a *user* message, whatever its role. Assistant turns are not sent as assistant messages.
- The agent falls back to OpenAI / gpt-4o-mini when either stored value is missing *or falsy* (`""` or `"0"`), and then replaces both values. A missing value is not the only trigger.
- The demo pages read OpenRouter / qwen defaults and never write them back. So before anything is saved, the chat page and the demo pages show different pairs.
- The tool result (200) and the description excerpt (150) are cut with `substr`, which counts bytes, not characters.

## Model

| member | source | states |
|---|---|---|
| Prelude.Take | app/Http/Controllers/AgentController.php:55 | `substr($s, 0, n)` and `limit(n)`: the first min(n, \|s\|) elements of s, a prefix of it |
| Prelude.Dec | app/Http/Controllers/ArticleController.php:54 | PHP's string conversion of a non-negative integer: at least one decimal digit, a single digit exactly for numbers below 10, nothing but digits |
| Prelude.DecRoundTrip | app/Http/Controllers/ArticleController.php:54 | the decimal string of n reads back as n (`DecValue`), so the conversion loses nothing |
| Prelude.LeadingZeros | app/Http/Controllers/AgentController.php:68 | zeros in front of a digit string do not change the number it denotes |
| Prelude.PadValue | app/Http/Controllers/AgentController.php:68 | a zero-padded date field still denotes the field's number |
| Session.Read | app/Http/Controllers/AgentController.php:110-111 | a session read is present exactly when the key is stored, and then yields the stored value |
| Session.ReadOr | app/Http/Controllers/OpenRouterDemoController.php:38-39 | a read with a default yields the stored value if the key is present, the default otherwise |
| Session.Store.PutSelection | app/Http/Controllers/AgentController.php:119-122 | writing the pair sets both keys to the pair and leaves every other key as it was |
| Sse.ProviderFor | app/Http/Controllers/AgentController.php:127 | the OpenAI enum exactly for the name "OpenAI"; anything else is OpenRouter |
| Agent.PageSelection | app/Http/Controllers/AgentController.php:18-24 | the chat page shows each stored value, or OpenAI / gpt-4o-mini for a missing key |
| Agent.Resolve | app/Http/Controllers/AgentController.php:110-123 | afterwards both keys are stored and usable, and the selection is the stored pair. A usable stored pair is kept and the session is unchanged. Otherwise both values become the defaults. No other key changes |
| Agent.ResolveIsStable | app/Http/Controllers/AgentController.php:113-123 | on the session map, resolving the map a resolution produced changes nothing and selects the same pair |
| Agent.Window | app/Http/Controllers/AgentController.php:135 | the last min(3, n) entries of the history, in order |
| Agent.AssembleMessages | app/Http/Controllers/AgentController.php:134-143 | it succeeds iff every windowed entry has a content; then it gives the window's contents as user messages followed by the current message. Otherwise it fails with the undefined-key error |
| Agent.FrameOf | app/Http/Controllers/AgentController.php:163-193 | a shown event gives a non-terminal, non-test frame. A delta keeps its text, a tool call keeps name and arguments, and a tool result keeps its name with the first min(200, n) bytes of its result |
| Agent.ShownEvents | app/Http/Controllers/AgentController.php:160-194 | every kept event produces a frame and comes from the events, and no more are kept than there are events |
| Agent.ShownEventsIsFilter | app/Http/Controllers/AgentController.php:160-194 | the kept events are the events filtered by type: every text delta, tool call and tool result is kept, as often as it occurs and in source order |
| Agent.Translate | app/Http/Controllers/AgentController.php:160-194 | one frame per shown event, none of them `test`, `done` or `error` |
| Agent.TranslateIsPointwise | app/Http/Controllers/AgentController.php:160-194 | frame i is the frame of the i-th shown event, so the source order is kept |
| Agent.TranslateKeepsText | app/Http/Controllers/AgentController.php:163-169 | the texts of the delta frames concatenate to the concatenated text of the delta events |
| Agent.AgentStreamShape | app/Http/Controllers/AgentController.php:100-220 | `test` comes first and exactly one terminal frame comes last, with one frame per shown event between them. A normal end is `done` carrying the concatenated delta texts. A fault ends in `error` with its message and has no `done` anywhere |
| Agent.FaultKeepsEarlierFrames | app/Http/Controllers/AgentController.php:205-219 | a fault after k events gives the full stream's frames for those k events in order, then exactly one `error`, and no `done` |
| Agent.RelayEvents | app/Http/Controllers/AgentController.php:158-194 | the loop writes the translated frames and accumulates the concatenated delta text |
| Agent.Chat | app/Http/Controllers/AgentController.php:86-227 | an invalid message is rejected with no write. A valid one resolves the pair with write-back. An entry of the last three history entries without content gives `test` then `error` with no upstream call. Otherwise the upstream call uses the resolved provider and model, the assembled messages, the one tool and 5 steps, and the response is the full frame stream |
| Articles.SortByDateDesc | app/Http/Controllers/ArticleController.php:20-28 | the rows are reordered, with the same multiset, so that no date is later than the one before it |
| Articles.IndexOfId | app/Http/Controllers/ArticleController.php:74 | route binding finds a row with the id, or reports that none has it |
| Articles.Authorize | app/Http/Controllers/ArticleController.php:79-81 | 404 iff no row has the id. 403 iff the row exists and the user is neither an admin nor its owner. Otherwise it gives the row's position, which the user may access |
| Articles.Fetch | app/Http/Controllers/ArticleController.php:74-99 | `show`/`edit` yield a stored row with that id that the user may access. 404 iff no row has the id. With unique ids, access is granted iff such an accessible row exists |
| Articles.Listing | app/Http/Controllers/ArticleController.php:15-28 | sorted by date, newest first, and holding each accessible row as often as the table does (all rows for an admin, only the user's own otherwise) and no other row |
| Articles.Paginate | app/Http/Controllers/ArticleController.php:20-27 | a page is the run of the listing from the page's start, 15 rows or as many as remain, and empty past the end; a page number below 1 reads as page 1 |
| Articles.PagesCover | app/Http/Controllers/ArticleController.php:20-27 | every row of the listing is on page i/15 + 1 at position i mod 15, so paging loses no row |
| Articles.IndexPage | app/Http/Controllers/ArticleController.php:15-28 | the index page is exactly page `page` of the user's listing (`Paginate`): at most 15 rows, sorted newest first, all stored and accessible to the user; the first page is the first 15 rows of the listing |
| Articles.IndexPagesCoverListing | app/Http/Controllers/ArticleController.php:20-27 | row i of the user's listing appears on index page i/15 + 1 at place i mod 15, so no accessible article is missing from the index |
| Articles.PaginateKeeps | app/Http/Controllers/ArticleController.php:20-27 | a page of a newest-first listing is itself newest first and holds only rows of the listing |
| Articles.ListingMembers | app/Http/Controllers/ArticleController.php:15-28 | every row of the listing is a stored row the user may open |
| Articles.SlugCandidate | app/Http/Controllers/ArticleController.php:49-54 | attempt 0 is the base slug, and only attempt 0 is |
| Articles.CandidatesDistinct | app/Http/Controllers/ArticleController.php:53-55 | different attempts give different slugs |
| Articles.UniqueSlug | app/Http/Controllers/ArticleController.php:49-56 | the loop stops for every finite set of taken slugs, after at most that many suffixed attempts, on the first attempt that is not taken |
| Articles.ArticleTable.Store | app/Http/Controllers/ArticleController.php:44-65 | appends one row owned by the user with the input's fields, a fresh id and the first free slug for its title. Id and slug uniqueness are preserved |
| Articles.ArticleTable.Update | app/Http/Controllers/ArticleController.php:104-129 | 404/403 change nothing. Otherwise only that row changes, keeping its id and owner and taking the input. Its slug is kept when the title is unchanged; otherwise it is the first free slug, ignoring its own row. Uniqueness is preserved |
| Articles.ArticleTable.Destroy | app/Http/Controllers/ArticleController.php:138-147 | 404/403 change nothing; otherwise exactly that row is removed |
| ArticleSearch.Select | app/Http/Controllers/AgentController.php:36-56 | at most 4 rows, sorted by date, each a stored row that matches the status and query filters |
| ArticleSearch.SelectIsNewestMatches | app/Http/Controllers/AgentController.php:39-56 | the selection has min(4, #matches) rows and is a sub-multiset of the matches. A match left out exists only when 4 rows were taken, and it is no newer than the last of them |
| ArticleSearch.DateText | app/Http/Controllers/AgentController.php:68 | the `Y-m-d` rendering holds only digits and dashes and is at least ten characters long; for a year below 10000 and month and day below 100 it is exactly ten, with the dashes at positions 4 and 7, and the digits before, between and after them denote the year, month and day |
| ArticleSearch.PadFits | app/Http/Controllers/AgentController.php:68 | a number with at most `width` digits pads to exactly `width` digits that denote it |
| ArticleSearch.PaddedFields | app/Http/Controllers/AgentController.php:68 | a year below 10000 and a month and day below 100 pad to exactly four, two and two digits that denote them |
| ArticleSearch.DashedValues | app/Http/Controllers/AgentController.php:68 | joining four, two and two digits with dashes puts each run back at the places `Y-m-d` reads it, with the same value |
| ArticleSearch.Excerpt | app/Http/Controllers/AgentController.php:70 | a description of at most 150 bytes is kept whole; a longer one becomes its first 150 bytes followed by "..." |
| ArticleSearch.OutcomeIsRecognisable | app/Http/Controllers/AgentController.php:58-79 | the answer is never empty. It starts with 'F' (the header, 1 to 4 articles), 'N' (no match) or 'E' (a query fault or a missing author), each exactly in its case |
| ArticleSearch.RenderBlocks | app/Http/Controllers/AgentController.php:63-72 | the loop completes iff every selected article has an author, and then yields all blocks in order |
| ArticleSearch.SearchArticles | app/Http/Controllers/AgentController.php:34-79 | the tool's answer: the error text for a query fault, the no-results text, the error text for a missing author, or the header followed by the blocks |
| OpenRouterDemo.AvailableModels | app/Http/Controllers/OpenRouterDemoController.php:16-30 | two providers, OpenAI then OpenRouter, with their models in display order |
| OpenRouterDemo.ValidProvidersAreCatalogued | app/Http/Controllers/OpenRouterDemoController.php:50 | the settings form accepts exactly the providers that the catalogue shows |
| OpenRouterDemo.CurrentSelection | app/Http/Controllers/OpenRouterDemoController.php:35-42 | `settings`, `textDemo` and `streamDemo` show each stored value, or OpenRouter / qwen for a missing key |
| OpenRouterDemo.DefaultsAreListed | app/Http/Controllers/OpenRouterDemoController.php:38-39 | with nothing stored, the pair shown is one the catalogue lists |
| OpenRouterDemo.SettingsErrors | app/Http/Controllers/OpenRouterDemoController.php:49-52 | "provider" fails iff it is missing or not one of the two names; "model" fails iff it is missing or blank |
| OpenRouterDemo.SaveSettings | app/Http/Controllers/OpenRouterDemoController.php:47-60 | a rejected form reports the failing fields and leaves the session unchanged; an accepted form writes both keys and nothing else |
| OpenRouterDemo.SaveThenRead | app/Http/Controllers/OpenRouterDemoController.php:54-57 | after an accepted save, the pages show exactly the saved pair, and its provider is in the catalogue |
| OpenRouterDemo.SaveAcceptsUncataloguedPair | app/Http/Controllers/OpenRouterDemoController.php:51 | the form accepts OpenAI with an OpenRouter model, a pair the catalogue does not list |
| OpenRouterDemo.RequestFor | app/Http/Controllers/OpenRouterDemoController.php:94-102 | the upstream call uses the shown model and the prompt, and the OpenAI enum exactly when the shown provider is "OpenAI" |
| OpenRouterDemo.GenerateText | app/Http/Controllers/OpenRouterDemoController.php:87-117 | an invalid prompt is rejected. Otherwise it returns status 200 with the text and usage when the call for the session's pair succeeds, or status 500 with the exception message |
| OpenRouterDemo.DeltaFrames | app/Http/Controllers/OpenRouterDemoController.php:140-150 | only `delta` frames, at most one per event, whose texts concatenate to the streamed text |
| OpenRouterDemo.DeltaFramesPointwise | app/Http/Controllers/OpenRouterDemoController.php:140-149 | exactly one `delta` frame per text-delta event, in order: frame i carries the i-th text delta's own text, so deltas are never merged or dropped |
| OpenRouterDemo.DemoStreamShape | app/Http/Controllers/OpenRouterDemoController.php:140-170 | only deltas, then exactly one terminal frame. That frame is a payload-free `done` iff the stream ended normally, and an `error` with the message on a fault. There is never a `test` frame |
| OpenRouterDemo.GenerateStream | app/Http/Controllers/OpenRouterDemoController.php:122-177 | an invalid prompt is rejected with no upstream call; otherwise it makes the call for the session's pair and returns the delta frames followed by the terminal frame |
| ChatClient.Trim | resources/views/agent/chat.blade.php:299 | the trimmed message has no ECMAScript white space at either end |
| ChatClient.TrimIsSlice | resources/views/agent/chat.blade.php:299 | the trimmed message is a slice of the input, and only white space is cut on either side |
| ChatClient.TrimFacts | resources/views/agent/chat.blade.php:299-300 | trimming is idempotent, and a message is rejected as empty iff it is all white space |
| ChatClient.Split | resources/views/agent/chat.blade.php:351 | at least one line, none containing a newline |
| ChatClient.JoinSplit | resources/views/agent/chat.blade.php:351 | joining the lines with newlines gives the chunk back |
| ChatClient.SplitJoin | resources/views/agent/chat.blade.php:351 | splitting joined newline-free lines gives those lines back |
| ChatClient.ApplyFrame | resources/views/agent/chat.blade.php:357-389 | `delta` only extends the response. `done` appends an assistant turn with the response and frees the page. `error` only frees the page. `test`, `tool_call` and `tool_result` change nothing |
| ChatClient.ApplyLine | resources/views/agent/chat.blade.php:353-355 | a line not starting with `data: ` changes nothing |
| ChatClient.TurnAppendsUserThenAssistants | resources/views/agent/chat.blade.php:294-402 | during a submit, history only grows: the old history, the user turn, then assistant turns only. A rejected fetch or a non-OK status adds the user turn alone and frees the page |
| ChatClient.ChatPage.constructor | resources/views/agent/chat.blade.php:175-176 | empty history, not busy |
| ChatClient.ChatPage.HandleLine | resources/views/agent/chat.blade.php:353-390 | one line of the body changes the page as the line specification says |
| ChatClient.ChatPage.ReadLines | resources/views/agent/chat.blade.php:353-391 | the line loop applies the lines in order and stops at the first throw |
| ChatClient.ChatPage.ReadBody | resources/views/agent/chat.blade.php:346-392 | the read loop applies the chunks in order and stops at the first throw |
| ChatClient.ChatPage.Submit | resources/views/agent/chat.blade.php:294-402 | a busy page or a blank message posts nothing and changes nothing. Otherwise it posts the trimmed message with the history from before the submit, and the page ends as the turn specification says |
| EndToEnd.QuietFramesOnlyAddText | resources/views/agent/chat.blade.php:357-376 | frames other than `done`/`error` only append their delta texts to the response |
| EndToEnd.FrameLines | app/Http/Controllers/AgentController.php:166-169 | a frame on the wire splits into its `data: ` line and a blank line |
| EndToEnd.WireDeliversFrames | resources/views/agent/chat.blade.php:350-355 | reading the wire text of frames line by line handles exactly those frames, in order, without throwing |
| EndToEnd.ChunksDeliverFrames | resources/views/agent/chat.blade.php:346-392 | however whole frames are grouped into chunks, the page handles all of them in order |
| EndToEnd.AgentTurnRoundTrip | resources/views/agent/chat.blade.php:294-402 | fed the agent's stream, the page ends not busy. A normal end adds the user turn and exactly one assistant turn holding the text that the `done` frame carries. A fault adds the user turn only |
| EndToEnd.ToEntries | resources/views/agent/chat.blade.php:331-334 | every posted history entry has a role and carries the turn's content |
| EndToEnd.PostedHistoryIsAssembled | app/Http/Controllers/AgentController.php:135-143 | for values as posted by the page (before any middleware), no history entry lacks content. The agent sends the last three turns, assistant turns included, as user messages, then the current message |
| EndToEnd.AgentChoiceShownByDemo | app/Http/Controllers/OpenRouterDemoController.php:35-42 | on the session map the agent's resolution produced, the demo pages' read gives the pair the agent selected |
| EndToEnd.SavedPairUsedByAgent | app/Http/Controllers/AgentController.php:110-123 | after an accepted save, the agent uses the saved pair iff the model is not "0"; for "0" it uses its defaults |

## Left out

- Prism (`Prism::text()`, `asStream`, `generate`, the system prompt, `withMaxSteps`, `Tool::as`) is a foreign library. The model represents it in two ways:
  - the stream is a scripted `Script`;
  - the one-shot result is a parameter.
  How the library runs tools between steps is not modelled.
- Eloquent and SQL are modelled as operations on sequences of rows:
  - the database's `LIKE` is a parameter predicate, so collation, case folding and unescaped `%`/`_` in the query are not modelled;
  - the order among articles with equal dates is left to the database, and the model fixes one such order.
- `Str::slug`, `json_encode`/`JSON.parse`, `TextDecoder` and the date cast are library calls. The caller supplies the base slug, and encoder and parser are parameters. A date is a triple of numbers and is formatted with zero padding.
- Logging, `ob_flush`/`flush`, response headers, redirects, flash messages, views and `abort` pages are not modelled. In the other operations a validation failure appears only as a rejected outcome.
- Articles.ArticleTable.Store, Articles.ArticleTable.Update: they take an `ArticleInput` that has already passed the `StoreArticleRequest` rules, so a validation failure is not modelled for them. In `update` the form request validates before the body runs (ArticleController.php:104), so a user who does not own the article and posts invalid fields gets a validation redirect rather than a 403; the model covers only valid input, where the ownership check decides.
- Laravel middleware is not modelled, including input trimming and empty-to-null conversion. Values reach the controllers as posted.
- Validation counts string length in characters, and `substr` counts bytes. The model treats each character as one byte, which is exact for single-byte text. For multi-byte text, a cut at byte 200 of a tool result (or 150 of a description) can split a character. `json_encode` then fails on the malformed UTF-8 and the frame goes out as a bare `data: ` line, on which the page's `JSON.parse` throws. `EndToEnd.Codec` assumes encoding never fails, so EndToEnd.AgentTurnRoundTrip does not cover that case.
- EndToEnd.PostedHistoryIsAssembled: holds for values as posted. After a turn with no text deltas (for example one that ended in tool calls), the page stores an assistant turn with content `""`. Laravel's empty-string-to-null middleware then turns that content into null. `new UserMessage(null)` raises a `TypeError`, which `catch (\Exception)` does not catch, so the stream stops after `test` with neither `done` nor `error`, and the page stays busy. The model does not cover this case.
- Malformed `history` input is not modelled: entries that are not arrays, contents that are not strings, or a null history. The model's entries are records whose content is either missing or a string. A missing content among the last three entries is modelled, and ends the stream with `error`.
- Agent.Chat, Agent.ResolveIsStable, EndToEnd.AgentChoiceShownByDemo: the model treats the fallback write-back as persisted in the session. In the source, the write runs inside the streamed response's callback, after Laravel's session middleware has likely already saved the session. Later requests then may not see the written defaults: after a chat on a fresh session, the demo pages would still show OpenRouter / qwen. These members state facts about the session map, not about what later requests read.
- Session reads and writes are not atomic with respect to other requests in the same session, and concurrent requests are not modelled.
- The chat page's DOM is not modelled: message bubbles, typing indicator, tool badges, status text and the button state.
- The chat page runs the handler to completion per submit. A second submit that interleaves at an `await` after a `done` frame is not modelled.
- EndToEnd.AgentTurnRoundTrip: assumes each body chunk holds whole frames. A frame split across two chunks is not covered by the lemma. `ChatClient` itself handles each chunk's lines independently, as the source does.
- Articles.CanAccess: the owner test compares ids as numbers. That test decides `Authorize`, `Fetch`, `ArticleTable.Update` and `ArticleTable.Destroy`. The source uses a strict `!==` there, while `index` filters with a non-strict SQL `where('user_id', …)`. With a driver that returns ids as strings, an owner would see a row in the listing and still get 403 on show, edit, update and destroy. The model does not capture that mismatch.
- The `index` pagination links and the eager-loaded `user` relation of the listing are not modelled.

=== FILE: agent.dfy ===
/**
 * `AgentController`: the chat page's provider pair, the provider/model
 * resolution with its write-back, the three-entry history window, and the
 * SSE relay of `chat` that turns upstream events into frames.
 */
module Agent {
  import opened Prelude
  import opened Sse
  import opened Session

  const DefaultProvider := "OpenAI"
  const DefaultModel := "gpt-4o-mini"
  const HistoryWindow := 3
  const MaxSteps := 5
  const ToolResultPreview := 200
  const MaxMessageLength := 2000
  const StreamStarted := "Stream started"
  const SearchToolName := "search_articles"
  /** The ErrorException raised when a history entry has no `content` key. */
  const MissingContent := "Undefined array key \"content\""

  /** `index`: the pair shown on the chat page, read with the agent's defaults and not written back. */
  function PageSelection(data: SessionData): (sel: Selection)
    ensures ProviderKey in data ==> sel.provider == data[ProviderKey]
    ensures ProviderKey !in data ==> sel.provider == DefaultProvider
    ensures ModelKey in data ==> sel.model == data[ModelKey]
    ensures ModelKey !in data ==> sel.model == DefaultModel
  {
    Selection(ReadOr(data, ProviderKey, DefaultProvider), ReadOr(data, ModelKey, DefaultModel))
  }

  /** The pair `chat` uses and the session after its write-back. */
  datatype Resolution = Resolution(selection: Selection, session: SessionData)

  /** True when both stored values are present and truthy, so `chat` uses them as they are. */
  predicate StoredPairUsable(data: SessionData) {
    !PhpFalsy(Read(data, ProviderKey)) && !PhpFalsy(Read(data, ModelKey))
  }

  /**
   * The fallback in `chat`: if either stored value is missing or falsy, BOTH
   * become OpenAI / gpt-4o-mini and are written back; otherwise the stored pair is used.
   */
  function Resolve(data: SessionData): (r: Resolution)
    ensures ProviderKey in r.session && ModelKey in r.session
    ensures r.selection == Selection(r.session[ProviderKey], r.session[ModelKey])
    ensures StoredPairUsable(r.session)
    ensures StoredPairUsable(data) ==> r.session == data
    ensures !StoredPairUsable(data) ==> r.selection == Selection(DefaultProvider, DefaultModel)
    ensures r.session.Keys == data.Keys + {ProviderKey, ModelKey}
    ensures forall k :: k in data && k != ProviderKey && k != ModelKey ==> r.session[k] == data[k]
  {
    if StoredPairUsable(data) then
      Resolution(Selection(data[ProviderKey], data[ModelKey]), data)
    else
      var sel := Selection(DefaultProvider, DefaultModel);
      Resolution(sel, data[ProviderKey := sel.provider][ModelKey := sel.model])
  }

  /** On the session map, resolving the map a resolution produced selects the same pair and changes nothing. */
  lemma ResolveIsStable(data: SessionData)
    ensures Resolve(Resolve(data).session) == Resolve(data)
  {
  }

  /** A history entry as posted by the client; either key may be missing. */
  datatype HistoryEntry = HistoryEntry(role: Option<string>, content: Option<string>)

  /** A message of the upstream conversation. */
  datatype Message = UserMessage(content: string)

  /** `array_slice($history, -3)`: the last min(3, |history|) entries, in order. */
  function Window<T>(history: seq<T>): (w: seq<T>)
    ensures |w| == if |history| < HistoryWindow then |history| else HistoryWindow
    ensures w == history[|history| - |w|..]
  {
    if |history| <= HistoryWindow then history else history[|history| - HistoryWindow..]
  }

  predicate AllHaveContent(entries: seq<HistoryEntry>) {
    forall i :: 0 <= i < |entries| ==> entries[i].content.Some?
  }

  /** `msgs` is the window's contents, each as a user message whatever its role, then the current message. */
  predicate IsAssembly(history: seq<HistoryEntry>, message: string, msgs: seq<Message>) {
    var w := Window(history);
    && AllHaveContent(w)
    && |msgs| == |w| + 1
    && (forall i :: 0 <= i < |w| ==> msgs[i] == UserMessage(w[i].content.value))
    && msgs[|w|] == UserMessage(message)
  }

  /** The `foreach` over the windowed history followed by the current message. */
  method AssembleMessages(history: seq<HistoryEntry>, message: string) returns (r: Result<seq<Message>, string>)
    ensures r.Success? <==> AllHaveContent(Window(history))
    ensures r.Success? ==> IsAssembly(history, message, r.value)
    ensures r.Failure? ==> r.error == MissingContent
  {
    var window := Window(history);
    var messages: seq<Message> := [];
    var i := 0;
    while i < |window|
      invariant 0 <= i <= |window|
      invariant |messages| == i
      invariant forall j :: 0 <= j < i ==> window[j].content.Some? && messages[j] == UserMessage(window[j].content.value)
    {
      if window[i].content.None? {
        return Failure(MissingContent);
      }
      messages := messages + [UserMessage(window[i].content.value)];
      i := i + 1;
    }
    messages := messages + [UserMessage(message)];
    return Success(messages);
  }

  /** Events that produce a frame: text deltas, tool calls and tool results. */
  predicate Shown(e: Event) {
    !e.OtherEvent?
  }

  /** The frame written for one shown event; a tool result is cut to its first 200 bytes. */
  function FrameOf(e: Event): (f: Frame)
    requires Shown(e)
    ensures !IsTerminal(f) && !f.Test?
    ensures f.Delta? <==> e.TextDelta?
    ensures e.TextDelta? ==> f.text == e.delta
    ensures e.ToolCall? ==> f == ToolCallFrame(e.name, e.arguments)
    ensures e.ToolResult? ==>
              && f.ToolResultFrame? && f.tool == e.toolName
              && |f.result| == (if |e.result| < ToolResultPreview then |e.result| else ToolResultPreview)
              && f.result == e.result[..|f.result|]
  {
    match e
    case TextDelta(d) => Delta(d)
    case ToolCall(name, args) => ToolCallFrame(name, args)
    case ToolResult(name, result) => ToolResultFrame(name, Take(result, ToolResultPreview))
  }

  /** The shown events, in source order. */
  function ShownEvents(events: seq<Event>): (shown: seq<Event>)
    ensures |shown| <= |events|
    ensures forall i :: 0 <= i < |shown| ==> Shown(shown[i]) && shown[i] in events
  {
    if events == [] then []
    else (if Shown(events[0]) then [events[0]] else []) + ShownEvents(events[1..])
  }

  /** The shown events are the events filtered by `Shown`: every shown event kept, as often as it occurs, in order. */
  lemma {:induction false} ShownEventsIsFilter(events: seq<Event>)
    ensures ShownEvents(events) == FilterSeq(events, Shown)
  {
    if events != [] {
      ShownEventsIsFilter(events[1..]);
    }
  }

  /** The frames the relay loop writes, event by event; other event types write nothing. */
  function Translate(events: seq<Event>): (frames: seq<Frame>)
    ensures |frames| == |ShownEvents(events)|
    ensures forall i :: 0 <= i < |frames| ==> !IsTerminal(frames[i]) && !frames[i].Test?
  {
    if events == [] then []
    else (if Shown(events[0]) then [FrameOf(events[0])] else []) + Translate(events[1..])
  }

  /** One frame per shown event, in source order: frame i is the frame of the i-th shown event. */
  lemma {:induction false} TranslateIsPointwise(events: seq<Event>)
    ensures forall i :: 0 <= i < |Translate(events)| ==> Translate(events)[i] == FrameOf(ShownEvents(events)[i])
  {
    if events != [] {
      TranslateIsPointwise(events[1..]);
    }
  }

  lemma {:induction false} TranslateAppend(a: seq<Event>, b: seq<Event>)
    ensures Translate(a + b) == Translate(a) + Translate(b)
  {
    if a == [] {
      assert a + b == b;
    } else {
      assert (a + b)[0] == a[0];
      assert (a + b)[1..] == a[1..] + b;
      TranslateAppend(a[1..], b);
    }
  }

  /** The `delta` frames carry, in order, exactly the text of the upstream deltas. */
  lemma {:induction false} TranslateKeepsText(events: seq<Event>)
    ensures DeltaTexts(Translate(events)) == EventText(events)
  {
    if events != [] {
      assert events == [events[0]] + events[1..];
      TranslateAppend([events[0]], events[1..]);
      DeltaTextsAppend(Translate([events[0]]), Translate(events[1..]));
      TranslateKeepsText(events[1..]);
      assert [events[0]][1..] == [];
    }
  }

  /** The frame that ends the stream: `done` with the accumulated text, or `error` with the fault's message. */
  function Terminal(script: Script): Frame {
    match script.ending
    case Exhausted => Done(Some(EventText(script.events)))
    case Fault(m) => Error(m)
  }

  /** Everything `chat` writes once the request is valid and the messages are assembled. */
  function AgentStream(script: Script): seq<Frame> {
    [Test(StreamStarted)] + Translate(script.events) + [Terminal(script)]
  }

  /**
   * The relay's frame contract: `test` first, one frame per shown event, then
   * exactly one terminal frame; `done` carries the concatenated delta frames,
   * and a faulting stream has no `done` at all.
   */
  lemma AgentStreamShape(script: Script)
    ensures var s := AgentStream(script);
      && s[0] == Test(StreamStarted)
      && WellTerminated(s)
      && |s| == |ShownEvents(script.events)| + 2
      && s[1..|s| - 1] == Translate(script.events)
      && (script.ending.Exhausted? ==> s[|s| - 1] == Done(Some(DeltaTexts(s))))
      && (script.ending.Fault? ==> s[|s| - 1] == Error(script.ending.message) && forall i :: 0 <= i < |s| ==> !s[i].Done?)
  {
    var s := AgentStream(script);
    var t := Translate(script.events);
    assert s == [Test(StreamStarted)] + t + [Terminal(script)];
    assert s[1..|s| - 1] == t;
    TranslateKeepsText(script.events);
    DeltaTextsAppend([Test(StreamStarted)] + t, [Terminal(script)]);
    DeltaTextsAppend([Test(StreamStarted)], t);
    assert [Test(StreamStarted)][1..] == [];
    assert [Terminal(script)][1..] == [];
    assert DeltaTexts([Test(StreamStarted)]) == "";
    assert DeltaTexts([Terminal(script)]) == "";
    assert DeltaTexts(s) == EventText(script.events);
    if script.ending.Exhausted? {
      assert s[|s| - 1] == Terminal(script) == Done(Some(EventText(script.events)));
    }
  }

  /**
   * A fault after the first k events: the frames those k events produce, in
   * the order the full stream would have them, then a single `error`.
   */
  lemma FaultKeepsEarlierFrames(events: seq<Event>, k: nat, message: string, ending: Ending)
    requires k <= |events|
    ensures var full := AgentStream(Script(events, ending));
      var cut := AgentStream(Script(events[..k], Fault(message)));
      && cut[..|cut| - 1] <= full
      && cut[|cut| - 1] == Error(message)
      && forall i :: 0 <= i < |cut| ==> !cut[i].Done?
  {
    var head := [Test(StreamStarted)] + Translate(events[..k]);
    assert events == events[..k] + events[k..];
    TranslateAppend(events[..k], events[k..]);
    assert AgentStream(Script(events, ending)) == head + (Translate(events[k..]) + [Terminal(Script(events, ending))]);
    var cut := AgentStream(Script(events[..k], Fault(message)));
    assert cut == head + [Error(message)];
    assert cut[..|cut| - 1] == head;
  }

  /** One more event adds its frame, if it is shown, and its delta text, if it is a delta. */
  lemma RelayStep(done: seq<Event>, e: Event)
    ensures Translate(done + [e]) == Translate(done) + (if Shown(e) then [FrameOf(e)] else [])
    ensures EventText(done + [e]) == EventText(done) + (if e.TextDelta? then e.delta else "")
  {
    TranslateAppend(done, [e]);
    EventTextAppend(done, [e]);
    assert [e][1..] == [];
  }

  /** The `foreach ($stream as $event)` loop: frames written and the accumulated `$fullResponse`. */
  method RelayEvents(events: seq<Event>) returns (frames: seq<Frame>, fullResponse: string)
    ensures frames == Translate(events)
    ensures fullResponse == EventText(events)
  {
    frames, fullResponse := [], "";
    var i := 0;
    while i < |events|
      invariant 0 <= i <= |events|
      invariant frames == Translate(events[..i])
      invariant fullResponse == EventText(events[..i])
    {
      var e := events[i];
      assert events[..i + 1] == events[..i] + [e];
      RelayStep(events[..i], e);
      match e {
        case TextDelta(d) =>
          fullResponse := fullResponse + d;
          frames := frames + [Delta(d)];
        case ToolCall(name, args) =>
          frames := frames + [ToolCallFrame(name, args)];
        case ToolResult(name, result) =>
          frames := frames + [ToolResultFrame(name, Take(result, ToolResultPreview))];
        case OtherEvent(_) =>
      }
      i := i + 1;
    }
    assert events[..i] == events;
  }

  /** The response of `chat`: a validation failure, or an event stream. */
  datatype ChatResponse = ValidationFailed | EventStream(frames: seq<Frame>)

  /** What `chat` hands to the upstream streaming call. */
  datatype UpstreamCall = UpstreamCall(provider: Provider, model: string, messages: seq<Message>, tools: seq<string>, maxSteps: nat)

  /** `'message' => 'required|string|max:2000'`. */
  predicate ValidChatMessage(message: Option<string>) {
    Required(message) && |message.value| <= MaxMessageLength
  }

  /**
   * `chat`: validation, then the stream: `test`, resolution with write-back,
   * message assembly, the upstream call and the relay loop, then `done` or `error`.
   */
  method Chat(session: Store, message: Option<string>, history: seq<HistoryEntry>, upstream: Script)
    returns (response: ChatResponse, call: Option<UpstreamCall>)
    modifies session
    ensures !ValidChatMessage(message) ==>
      response == ValidationFailed && call == None && session.data == old(session.data)
    ensures ValidChatMessage(message) ==> session.data == Resolve(old(session.data)).session
    ensures ValidChatMessage(message) && !AllHaveContent(Window(history)) ==>
      response == EventStream([Test(StreamStarted), Error(MissingContent)]) && call == None
    ensures ValidChatMessage(message) && AllHaveContent(Window(history)) ==>
      && response == EventStream(AgentStream(upstream))
      && call.Some?
      && var sel := Resolve(old(session.data)).selection;
      && call.value.provider == ProviderFor(sel.provider)
      && call.value.model == sel.model
      && IsAssembly(history, message.value, call.value.messages)
      && call.value.tools == [SearchToolName]
      && call.value.maxSteps == MaxSteps
  {
    if !ValidChatMessage(message) {
      return ValidationFailed, None;
    }
    var frames := [Test(StreamStarted)];

    var provider, model := Read(session.data, ProviderKey), Read(session.data, ModelKey);
    var selection: Selection;
    if PhpFalsy(provider) || PhpFalsy(model) {
      selection := Selection(DefaultProvider, DefaultModel);
      session.PutSelection(selection);
    } else {
      selection := Selection(provider.value, model.value);
    }

    var assembled := AssembleMessages(history, message.value);
    if assembled.Failure? {
      return EventStream(frames + [Error(assembled.error)]), None;
    }
    call := Some(UpstreamCall(ProviderFor(selection.provider), selection.model, assembled.value, [SearchToolName], MaxSteps));

    var relayed, fullResponse := RelayEvents(upstream.events);
    frames := frames + relayed;
    match upstream.ending {
      case Exhausted =>
        frames := frames + [Done(Some(fullResponse))];
      case Fault(m) =>
        frames := frames + [Error(m)];
    }
    response := EventStream(frames);
  }
}

=== FILE: article_search.dfy ===
/**
 * The agent's `search_articles` tool: filter the article table by status and
 * by a LIKE search on title or description, take the four newest, and render
 * them as the text block the model reads back.
 */
module ArticleSearch {
  import opened Prelude
  import opened Articles

  const NoResults := "No articles found matching your criteria."
  const ErrorPrefix := "Error searching articles: "
  const Limit := 4
  const DescriptionPreview := 150
  /** What reading the author's name of an article without a user raises. */
  const MissingAuthor := "Attempt to read property \"name\" on null"

  /** Only "published" and "draft" filter by status; "all" and every other value do not. */
  predicate StatusFilterApplies(status: string) {
    status == "published" || status == "draft"
  }

  /**
   * The WHERE clause. `like(column, query)` is the database's
   * `column LIKE '%query%'`; a query PHP counts as empty ("" or "0") adds no
   * condition.
   */
  predicate Matches(a: Article, like: (string, string) -> bool, query: string, status: string) {
    && (!StatusFilterApplies(status) || a.status == status)
    && (PhpEmpty(query) || like(a.title, query) || like(a.description, query))
  }

  /** The matching rows, in table order. */
  function MatchingRows(rows: seq<Article>, like: (string, string) -> bool, query: string, status: string): seq<Article> {
    FilterSeq(rows, (a: Article) => Matches(a, like, query, status))
  }

  /** `orderBy('date', 'desc')->limit(4)->get()`. */
  function Select(rows: seq<Article>, like: (string, string) -> bool, query: string, status: string): (r: seq<Article>)
    ensures |r| <= Limit
    ensures SortedByDateDesc(r)
    ensures forall a :: a in r ==> a in rows && Matches(a, like, query, status)
  {
    var sorted := SortByDateDesc(MatchingRows(rows, like, query, status));
    var r := Take(sorted, Limit);
    assert forall a :: a in r ==> a in sorted;
    assert forall a :: a in sorted ==> multiset(sorted)[a] > 0;
    r
  }

  /**
   * The selection holds min(4, #matches) rows, each taken from the matches no
   * more often than it occurs there, and it is the newest: a match left out
   * exists only when four rows were taken, and it is no newer than the last.
   */
  lemma SelectIsNewestMatches(rows: seq<Article>, like: (string, string) -> bool, query: string, status: string)
    ensures var r := Select(rows, like, query, status);
            var m := MatchingRows(rows, like, query, status);
            && |r| == (if |m| < Limit then |m| else Limit)
            && multiset(r) <= multiset(m)
            && forall x :: Matches(x, like, query, status) && multiset(r)[x] < multiset(rows)[x] ==>
                 |r| == Limit && DateAtMost(x.date, r[|r| - 1].date)
  {
    var m := MatchingRows(rows, like, query, status);
    var sorted := SortByDateDesc(m);
    var r := Select(rows, like, query, status);
    assert r == sorted[..|r|];
    assert sorted == r + sorted[|r|..];
    assert multiset(sorted) == multiset(r) + multiset(sorted[|r|..]);
    forall x | Matches(x, like, query, status) && multiset(r)[x] < multiset(rows)[x]
      ensures |r| == Limit && DateAtMost(x.date, r[|r| - 1].date)
    {
      assert multiset(sorted)[x] == multiset(rows)[x];
      assert x in multiset(sorted[|r|..]);
      var j :| 0 <= j < |sorted| - |r| && sorted[|r|..][j] == x;
      assert sorted[|r| + j] == x;
      assert |r| == Limit;
      assert r[|r| - 1] == sorted[|r| - 1];
    }
  }

  /** A date with a year below 10000 and month and day below 100 needs no more digits than `Y-m-d` pads to. */
  lemma FieldsFit(d: Date)
    ensures d.year < 10000 && d.month < 100 && d.day < 100 ==>
      |Dec(d.year)| <= 4 && |Dec(d.month)| <= 2 && |Dec(d.day)| <= 2
  {
    if d.year < 10000 && d.month < 100 && d.day < 100 {
      DecLength(d.year, 4);
      DecLength(d.month, 2);
      DecLength(d.day, 2);
    }
  }

  predicate AllDigits(s: string) {
    forall i :: 0 <= i < |s| ==> '0' <= s[i] <= '9'
  }

  /** Three digit runs joined by dashes: only digits and dashes, with the dashes right after each run. */
  function JoinDashed(a: string, b: string, c: string): (t: string)
    requires AllDigits(a) && AllDigits(b) && AllDigits(c)
    ensures |t| == |a| + |b| + |c| + 2
    ensures t[|a|] == '-' && t[|a| + 1 + |b|] == '-'
    ensures t[..|a|] == a && t[|a| + 1..|a| + 1 + |b|] == b && t[|a| + 2 + |b|..] == c
    ensures forall i :: 0 <= i < |t| ==> '0' <= t[i] <= '9' || t[i] == '-'
  {
    var t := a + "-" + b + "-" + c;
    forall i | 0 <= i < |t|
      ensures '0' <= t[i] <= '9' || t[i] == '-'
    {
      if i < |a| {
        assert t[i] == a[i];
      } else if |a| < i < |a| + 1 + |b| {
        assert t[i] == b[i - |a| - 1];
      } else if i > |a| + 1 + |b| {
        assert t[i] == c[i - |a| - |b| - 2];
      }
    }
    t
  }

  /** Joining runs of four, two and two digits puts each run back where `Y-m-d` reads it. */
  lemma DashedValues(y: string, m: string, dd: string)
    requires AllDigits(y) && AllDigits(m) && AllDigits(dd)
    ensures |y| == 4 && |m| == 2 && |dd| == 2 ==>
      var t := JoinDashed(y, m, dd);
      |t| == 10 && t[4] == '-' && t[7] == '-' && AllDigits(t[..4]) && AllDigits(t[5..7]) && AllDigits(t[8..])
      && DecValue(t[..4]) == DecValue(y) && DecValue(t[5..7]) == DecValue(m) && DecValue(t[8..]) == DecValue(dd)
  {
    if |y| == 4 && |m| == 2 && |dd| == 2 {
      var t := JoinDashed(y, m, dd);
      assert t[..4] == y && t[5..7] == m && t[8..] == dd;
    }
  }

  /** `n` padded to `width` takes exactly `width` digits, and they denote `n`. */
  predicate PadsExactly(n: nat, width: nat) {
    |Pad(n, width)| == width && AllDigits(Pad(n, width)) && DecValue(Pad(n, width)) == n
  }

  /** A number with at most `width` digits pads to exactly `width` digits that still denote it. */
  lemma PadFits(n: nat, width: nat)
    requires |Dec(n)| <= width
    ensures PadsExactly(n, width)
  {
    PadValue(n, width);
  }

  /** A date whose fields fit their widths pads each field to exactly its width, and the padding keeps its value. */
  lemma PaddedFields(d: Date)
    ensures d.year < 10000 && d.month < 100 && d.day < 100 ==>
      PadsExactly(d.year, 4) && PadsExactly(d.month, 2) && PadsExactly(d.day, 2)
  {
    if d.year < 10000 && d.month < 100 && d.day < 100 {
      FieldsFit(d);
      PadFits(d.year, 4);
      PadFits(d.month, 2);
      PadFits(d.day, 2);
    }
  }

  /** `$date->format('Y-m-d')`. */
  function DateText(d: Date): (t: string)
    ensures |t| >= 10
    ensures forall i :: 0 <= i < |t| ==> '0' <= t[i] <= '9' || t[i] == '-'
    ensures d.year < 10000 && d.month < 100 && d.day < 100 ==> |t| == 10 && t[4] == '-' && t[7] == '-'
    ensures d.year < 10000 && d.month < 100 && d.day < 100 ==>
      AllDigits(t[..4]) && AllDigits(t[5..7]) && AllDigits(t[8..])
    ensures d.year < 10000 && d.month < 100 && d.day < 100 ==>
      DecValue(t[..4]) == d.year && DecValue(t[5..7]) == d.month && DecValue(t[8..]) == d.day
  {
    PaddedFields(d);
    DashedValues(Pad(d.year, 4), Pad(d.month, 2), Pad(d.day, 2));
    JoinDashed(Pad(d.year, 4), Pad(d.month, 2), Pad(d.day, 2))
  }

  /** The first 150 bytes of a description, with "..." when bytes were cut. */
  function Excerpt(d: string): (e: string)
    ensures |d| <= DescriptionPreview ==> e == d
    ensures |d| > DescriptionPreview ==> |e| == DescriptionPreview + 3 && e[..DescriptionPreview] == d[..DescriptionPreview] && e[DescriptionPreview..] == "..."
  {
    Take(d, DescriptionPreview) + (if |d| > DescriptionPreview then "..." else "")
  }

  /** One article's block in the tool's answer. */
  function Block(a: Article, author: string): string {
    "**" + a.title + "**\n"
    + "Status: " + a.status + "\n"
    + "Date: " + DateText(a.date) + "\n"
    + "Author: " + author + "\n"
    + "Description: " + Excerpt(a.description) + "\n"
    + "---\n\n"
  }

  predicate AuthorsKnown(sel: seq<Article>, users: map<nat, User>) {
    forall j :: 0 <= j < |sel| ==> sel[j].userId in users
  }

  /** The blocks of the selected articles, in order. */
  function Blocks(sel: seq<Article>, users: map<nat, User>): string
    requires AuthorsKnown(sel, users)
  {
    if sel == [] then ""
    else Blocks(sel[..|sel| - 1], users) + Block(sel[|sel| - 1], users[sel[|sel| - 1].userId].name)
  }

  lemma BlocksStep(sel: seq<Article>, i: nat, users: map<nat, User>)
    requires i < |sel| && AuthorsKnown(sel[..i], users) && sel[i].userId in users
    ensures AuthorsKnown(sel[..i + 1], users)
    ensures Blocks(sel[..i + 1], users) == Blocks(sel[..i], users) + Block(sel[i], users[sel[i].userId].name)
  {
    assert sel[..i + 1][..i] == sel[..i];
  }

  function Header(count: nat): string {
    "Found " + Dec(count) + " article(s):\n\n"
  }

  /**
   * The tool's answer. `dbFault` is the message of an exception thrown by the
   * query; `users` is the users table by id.
   */
  function SearchResult(rows: seq<Article>, users: map<nat, User>, like: (string, string) -> bool,
                        query: string, status: string, dbFault: Option<string>): string
  {
    if dbFault.Some? then ErrorPrefix + dbFault.value
    else
      var sel := Select(rows, like, query, status);
      if sel == [] then NoResults
      else if !AuthorsKnown(sel, users) then ErrorPrefix + MissingAuthor
      else Header(|sel|) + Blocks(sel, users)
  }

  /**
   * The answer tells the model which case it is in by its first character:
   * 'F' for a list of 1 to 4 articles, 'N' for no match, 'E' for an error.
   */
  lemma {:induction false} OutcomeIsRecognisable(rows: seq<Article>, users: map<nat, User>, like: (string, string) -> bool,
                                                  query: string, status: string, dbFault: Option<string>)
    ensures var out := SearchResult(rows, users, like, query, status, dbFault);
            var sel := Select(rows, like, query, status);
            && |out| > 0
            && (out[0] == 'F' <==> dbFault.None? && sel != [] && AuthorsKnown(sel, users))
            && (out[0] == 'N' <==> dbFault.None? && sel == [])
            && (out[0] == 'E' <==> dbFault.Some? || (sel != [] && !AuthorsKnown(sel, users)))
            && (out[0] == 'F' ==> out[..|Header(|sel|)|] == Header(|sel|) && 1 <= |sel| <= Limit)
  {
    var out := SearchResult(rows, users, like, query, status, dbFault);
    var sel := Select(rows, like, query, status);
    if dbFault.Some? {
      assert out[0] == ErrorPrefix[0];
    } else if sel == [] {
      assert out[0] == NoResults[0];
    } else if !AuthorsKnown(sel, users) {
      assert out[0] == ErrorPrefix[0];
    } else {
      assert out == Header(|sel|) + Blocks(sel, users);
      assert out[0] == Header(|sel|)[0];
    }
  }

  /**
   * The `foreach` over the selection: appends each block, and stops at the
   * first article without an author, where reading its name throws.
   */
  method RenderBlocks(sel: seq<Article>, users: map<nat, User>) returns (complete: bool, text: string)
    ensures complete <==> AuthorsKnown(sel, users)
    ensures complete ==> text == Blocks(sel, users)
  {
    text := "";
    var i := 0;
    while i < |sel|
      invariant 0 <= i <= |sel|
      invariant AuthorsKnown(sel[..i], users)
      invariant text == Blocks(sel[..i], users)
    {
      if sel[i].userId !in users {
        return false, text;
      }
      BlocksStep(sel, i, users);
      text := text + Block(sel[i], users[sel[i].userId].name);
      i := i + 1;
    }
    assert sel[..i] == sel;
    complete := true;
  }

  /** The tool body, with its catch block. */
  method SearchArticles(rows: seq<Article>, users: map<nat, User>, like: (string, string) -> bool,
                        query: string, status: string, dbFault: Option<string>) returns (output: string)
    ensures output == SearchResult(rows, users, like, query, status, dbFault)
  {
    if dbFault.Some? {
      return ErrorPrefix + dbFault.value;
    }
    var sel := Select(rows, like, query, status);
    if |sel| == 0 {
      return NoResults;
    }
    var complete, blocks := RenderBlocks(sel, users);
    if !complete {
      return ErrorPrefix + MissingAuthor;
    }
    output := Header(|sel|) + blocks;
  }
}

=== FILE: articles.dfy ===
/**
 * `ArticleController`: the article table, the admin-or-owner rule of
 * show/edit/update/destroy, the index listing, and the unique-slug loops of
 * store and update. The `articles` table is a sequence of rows updated in place.
 */
module Articles {
  import opened Prelude

  /** A calendar date, compared year, then month, then day. */
  datatype Date = Date(year: nat, month: nat, day: nat)

  predicate DateAtMost(a: Date, b: Date) {
    a.year < b.year || (a.year == b.year && (a.month < b.month || (a.month == b.month && a.day <= b.day)))
  }

  datatype Article = Article(id: nat, userId: nat, title: string, slug: string, description: string, date: Date, status: string)

  datatype User = User(id: nat, name: string, isAdmin: bool)

  /** The validated fields of a store or update request. */
  datatype ArticleInput = ArticleInput(title: string, description: string, date: Date, status: string)

  /** `latest('date')` / `orderBy('date', 'desc')`: no article is older than one after it. */
  predicate SortedByDateDesc(s: seq<Article>) {
    forall i, j :: 0 <= i < j < |s| ==> DateAtMost(s[j].date, s[i].date)
  }

  lemma DateAtMostTransitive(a: Date, b: Date, c: Date)
    requires DateAtMost(a, b) && DateAtMost(b, c)
    ensures DateAtMost(a, c)
  {
  }

  function InsertByDate(a: Article, s: seq<Article>): (r: seq<Article>)
    requires SortedByDateDesc(s)
    ensures SortedByDateDesc(r)
    ensures multiset(r) == multiset(s) + multiset{a}
  {
    if s == [] || DateAtMost(s[0].date, a.date) then
      assert forall j :: 0 <= j < |s| ==> DateAtMost(s[j].date, a.date) by {
        forall j | 0 <= j < |s| ensures DateAtMost(s[j].date, a.date) {
          DateAtMostTransitive(s[j].date, s[0].date, a.date);
        }
      }
      [a] + s
    else
      var rest := InsertByDate(a, s[1..]);
      assert s == [s[0]] + s[1..];
      assert forall j :: 0 <= j < |rest| ==> DateAtMost(rest[j].date, s[0].date) by {
        forall j | 0 <= j < |rest| ensures DateAtMost(rest[j].date, s[0].date) {
          assert rest[j] in multiset(s[1..]) + multiset{a};
          if rest[j] != a {
            assert rest[j] in s[1..];
          }
        }
      }
      [s[0]] + rest
  }

  /**
   * The database's descending date order. Rows with equal dates keep their
   * table order; the database itself leaves their order unspecified.
   */
  function SortByDateDesc(s: seq<Article>): (r: seq<Article>)
    ensures SortedByDateDesc(r)
    ensures multiset(r) == multiset(s)
  {
    if s == [] then []
    else
      assert s == [s[0]] + s[1..];
      InsertByDate(s[0], SortByDateDesc(s[1..]))
  }

  /** `$user->isAdmin() || $article->user_id === $user->id`. */
  predicate CanAccess(user: User, article: Article) {
    user.isAdmin || article.userId == user.id
  }

  /** The result of a route bound to one article: 404, 403, or go ahead. */
  datatype Access<T> = NotFound | Forbidden | Allowed(value: T)

  /** Route-model binding: the position of the row with this id. */
  function IndexOfId(rows: seq<Article>, id: nat): (r: Option<nat>)
    ensures r.Some? ==> r.value < |rows| && rows[r.value].id == id
    ensures r.None? <==> forall j :: 0 <= j < |rows| ==> rows[j].id != id
  {
    if rows == [] then None
    else if rows[0].id == id then Some(0)
    else match IndexOfId(rows[1..], id)
      case None => None
      case Some(k) => Some(k + 1)
  }

  /** The guard at the top of show, edit, update and destroy: the row's position, or 404, or 403. */
  function Authorize(rows: seq<Article>, user: User, id: nat): (r: Access<nat>)
    ensures r.NotFound? <==> IndexOfId(rows, id).None?
    ensures r.Forbidden? <==> IndexOfId(rows, id).Some? && !CanAccess(user, rows[IndexOfId(rows, id).value])
    ensures r.Allowed? ==> r.value == IndexOfId(rows, id).value && CanAccess(user, rows[r.value])
  {
    match IndexOfId(rows, id)
    case None => NotFound
    case Some(i) => if CanAccess(user, rows[i]) then Allowed(i) else Forbidden
  }

  /** `show` and `edit`: the article, when the user is an admin or its owner. */
  function Fetch(rows: seq<Article>, user: User, id: nat): (r: Access<Article>)
    ensures r.NotFound? <==> forall j :: 0 <= j < |rows| ==> rows[j].id != id
    ensures UniqueKeys(rows) ==> (r.Allowed? <==> exists i :: 0 <= i < |rows| && rows[i].id == id && CanAccess(user, rows[i]))
    ensures r.Allowed? ==> r.value in rows && r.value.id == id && CanAccess(user, r.value)
  {
    match Authorize(rows, user, id)
    case NotFound => NotFound
    case Forbidden => Forbidden
    case Allowed(i) => Allowed(rows[i])
  }

  const PageSize := 15

  /** Everything `index` can list for this user, newest first: all rows for an admin, the user's own otherwise. */
  function Listing(rows: seq<Article>, user: User): (r: seq<Article>)
    ensures SortedByDateDesc(r)
    ensures forall a :: multiset(r)[a] == if CanAccess(user, a) then multiset(rows)[a] else 0
  {
    SortByDateDesc(if user.isAdmin then rows else FilterSeq(rows, (a: Article) => a.userId == user.id))
  }

  /** Where page `page` starts; pages below 1 read as page 1. */
  function PageStart(page: int): nat {
    (if page < 1 then 0 else page - 1) * PageSize
  }

  /**
   * `paginate(15)`: the run of `s` from the page's start, 15 elements or as
   * many as remain, and nothing past the end.
   */
  function Paginate<T>(s: seq<T>, page: int): (r: seq<T>)
    ensures |r| == if PageStart(page) >= |s| then 0
                   else if |s| - PageStart(page) < PageSize then |s| - PageStart(page) else PageSize
    ensures forall i :: 0 <= i < |r| ==> r[i] == s[PageStart(page) + i]
  {
    var start := PageStart(page);
    if start >= |s| then [] else s[start..if start + PageSize < |s| then start + PageSize else |s|]
  }

  /** Every element lies on page i/15 + 1 at position i mod 15, so paging loses nothing. */
  lemma PagesCover<T>(s: seq<T>, i: nat)
    requires i < |s|
    ensures var page := Paginate(s, i / PageSize + 1);
      i % PageSize < |page| && page[i % PageSize] == s[i]
  {
    var p := i / PageSize + 1;
    assert PageStart(p) == (i / PageSize) * PageSize;
    assert PageStart(p) + i % PageSize == i;
  }

  /** The listing holds only rows the user may open. */
  lemma ListingMembers(rows: seq<Article>, user: User)
    ensures forall a :: a in Listing(rows, user) ==> a in rows && CanAccess(user, a)
  {
    var l := Listing(rows, user);
    forall a | a in l
      ensures a in rows && CanAccess(user, a)
    {
      assert multiset(l)[a] > 0;
    }
  }

  /** A page of a newest-first listing is newest first, and holds only rows of the listing. */
  lemma PaginateKeeps(s: seq<Article>, page: int)
    ensures SortedByDateDesc(s) ==> SortedByDateDesc(Paginate(s, page))
    ensures forall a :: a in Paginate(s, page) ==> a in s
  {
    var r := Paginate(s, page);
    forall a | a in r
      ensures a in s
    {
      var i :| 0 <= i < |r| && r[i] == a;
      assert s[PageStart(page) + i] == a;
    }
  }

  /** `index`: page `page` of the listing. */
  function IndexPage(rows: seq<Article>, user: User, page: int): (r: seq<Article>)
    ensures |r| <= PageSize
    ensures SortedByDateDesc(r)
    ensures forall a :: a in r ==> a in rows && CanAccess(user, a)
    ensures page <= 1 ==> r == Take(Listing(rows, user), PageSize)
    ensures r == Paginate(Listing(rows, user), page)
  {
    PaginateKeeps(Listing(rows, user), page);
    ListingMembers(rows, user);
    Paginate(Listing(rows, user), page)
  }

  /** Every row of the listing is on the index page its position gives: row i is on page i/15 + 1 at place i mod 15. */
  lemma IndexPagesCoverListing(rows: seq<Article>, user: User, i: nat)
    requires i < |Listing(rows, user)|
    ensures var page := IndexPage(rows, user, i / PageSize + 1);
      i % PageSize < |page| && page[i % PageSize] == Listing(rows, user)[i]
  {
    PagesCover(Listing(rows, user), i);
  }

  /** Slug attempt k: the base slug itself, then `base-1`, `base-2`, ... */
  function SlugCandidate(base: string, k: nat): (s: string)
    ensures k == 0 <==> s == base
  {
    if k == 0 then base else base + "-" + Dec(k)
  }

  /** Different attempts give different slugs, so the loop never retries the same one. */
  lemma CandidatesDistinct(base: string, j: nat, k: nat)
    requires j != k
    ensures SlugCandidate(base, j) != SlugCandidate(base, k)
  {
    if j > 0 && k > 0 && SlugCandidate(base, j) == SlugCandidate(base, k) {
      assert SlugCandidate(base, j)[|base| + 1..] == Dec(j);
      assert SlugCandidate(base, k)[|base| + 1..] == Dec(k);
      DecInjective(j, k);
    }
  }

  /** The first n attempts. */
  function Tried(base: string, n: nat): (t: set<string>)
    ensures forall j :: 0 <= j < n ==> SlugCandidate(base, j) in t
  {
    if n == 0 then {} else Tried(base, n - 1) + {SlugCandidate(base, n - 1)}
  }

  lemma {:induction false} NotYetTried(base: string, n: nat, k: nat)
    requires n <= k
    ensures SlugCandidate(base, k) !in Tried(base, n)
  {
    if n > 0 {
      CandidatesDistinct(base, n - 1, k);
      NotYetTried(base, n - 1, k);
    }
  }

  /** The first n attempts are n different slugs. */
  lemma {:induction false} TriedSize(base: string, n: nat)
    ensures |Tried(base, n)| == n
  {
    if n > 0 {
      TriedSize(base, n - 1);
      NotYetTried(base, n - 1, n - 1);
    }
  }

  lemma {:induction false} SubsetSize(a: set<string>, b: set<string>)
    requires a <= b
    ensures |a| <= |b|
  {
    if a != {} {
      var x :| x in a;
      SubsetSize(a - {x}, b - {x});
    }
  }

  /** Attempt k is free and every earlier attempt is taken: the slug the loop settles on. */
  predicate IsFirstFree(base: string, taken: set<string>, k: nat) {
    SlugCandidate(base, k) !in taken && forall j :: 0 <= j < k ==> SlugCandidate(base, j) in taken
  }

  /**
   * The `while (... ->exists())` loop of store and update. It stops for every
   * finite set of taken slugs, after at most |taken| suffixed attempts, on the
   * first attempt that is not taken.
   */
  method UniqueSlug(base: string, taken: set<string>) returns (slug: string, attempts: nat)
    ensures slug == SlugCandidate(base, attempts)
    ensures IsFirstFree(base, taken, attempts)
    ensures attempts <= |taken|
  {
    slug := base;
    var counter: nat := 1;
    while slug in taken
      invariant counter >= 1
      invariant slug == SlugCandidate(base, counter - 1)
      invariant Tried(base, counter - 1) <= taken
      invariant counter - 1 <= |taken|
      decreases |taken| - (counter - 1)
    {
      TriedSize(base, counter);
      SubsetSize(Tried(base, counter), taken);
      slug := base + "-" + Dec(counter);
      counter := counter + 1;
    }
    attempts := counter - 1;
  }

  /** The slugs of the rows whose id is not `except`: what `where('slug', ...)` can find. */
  function TakenSlugs(rows: seq<Article>, except: Option<nat>): set<string> {
    set i | 0 <= i < |rows| && (except.None? || rows[i].id != except.value) :: rows[i].slug
  }

  /** No two rows share an id or a slug. */
  predicate UniqueKeys(rows: seq<Article>) {
    forall i, j :: 0 <= i < j < |rows| ==> rows[i].id != rows[j].id && rows[i].slug != rows[j].slug
  }

  /** The `articles` table. */
  class ArticleTable {
    var rows: seq<Article>
    var nextId: nat

    /** Ids and slugs are unique and every id is below the next auto-increment value. */
    ghost predicate Valid()
      reads this
    {
      UniqueKeys(rows) && forall i :: 0 <= i < |rows| ==> rows[i].id < nextId
    }

    constructor ()
      ensures Valid() && rows == [] && nextId == 1
    {
      rows, nextId := [], 1;
    }

    /** `store`: the new row is owned by the current user and carries the first free slug for its title. */
    method Store(user: User, input: ArticleInput, baseSlug: string) returns (created: Article)
      requires Valid()
      modifies this
      ensures Valid()
      ensures rows == old(rows) + [created] && nextId == old(nextId) + 1
      ensures created.id == old(nextId) && created.userId == user.id
      ensures created.title == input.title && created.description == input.description
      ensures created.date == input.date && created.status == input.status
      ensures created.slug !in TakenSlugs(old(rows), None)
      ensures exists k :: IsFirstFree(baseSlug, TakenSlugs(old(rows), None), k) && created.slug == SlugCandidate(baseSlug, k)
    {
      var slug, attempts := UniqueSlug(baseSlug, TakenSlugs(rows, None));
      created := Article(nextId, user.id, input.title, slug, input.description, input.date, input.status);
      forall i | 0 <= i < |rows|
        ensures rows[i].slug != slug
      {
        assert rows[i].slug in TakenSlugs(rows, None);
      }
      rows := rows + [created];
      nextId := nextId + 1;
    }

    /**
     * `update`: 404 or 403 leave the table as it was; otherwise the row takes
     * the input, keeps its id and owner, and gets a new slug only when the title
     * changed, ignoring its own current slug.
     */
    method Update(user: User, id: nat, input: ArticleInput, titleSlug: string) returns (outcome: Access<Article>)
      requires Valid()
      modifies this
      ensures Valid() && nextId == old(nextId)
      ensures outcome.NotFound? <==> Authorize(old(rows), user, id).NotFound?
      ensures outcome.Forbidden? <==> Authorize(old(rows), user, id).Forbidden?
      ensures !outcome.Allowed? ==> rows == old(rows)
      ensures outcome.Allowed? ==>
                var i := Authorize(old(rows), user, id).value;
                var before := old(rows)[i];
                && rows == old(rows)[i := outcome.value]
                && outcome.value.id == before.id && outcome.value.userId == before.userId
                && outcome.value.title == input.title && outcome.value.description == input.description
                && outcome.value.date == input.date && outcome.value.status == input.status
                && (input.title == before.title ==> outcome.value.slug == before.slug)
                && (input.title != before.title ==>
                      exists k :: IsFirstFree(titleSlug, TakenSlugs(old(rows), Some(id)), k)
                                  && outcome.value.slug == SlugCandidate(titleSlug, k))
    {
      var auth := Authorize(rows, user, id);
      if !auth.Allowed? {
        return if auth.NotFound? then NotFound else Forbidden;
      }
      var i := auth.value;
      var article := rows[i];
      var slug := article.slug;
      if input.title != article.title {
        var attempts;
        slug, attempts := UniqueSlug(titleSlug, TakenSlugs(rows, Some(article.id)));
        forall j | 0 <= j < |rows| && j != i
          ensures rows[j].slug != slug
        {
          assert rows[j].slug in TakenSlugs(rows, Some(article.id));
        }
      }
      var updated := Article(article.id, article.userId, input.title, slug, input.description, input.date, input.status);
      rows := rows[i := updated];
      outcome := Allowed(updated);
    }

    /** `destroy`: 404 or 403 leave the table as it was; otherwise exactly that row is removed. */
    method Destroy(user: User, id: nat) returns (outcome: Access<Article>)
      requires Valid()
      modifies this
      ensures Valid() && nextId == old(nextId)
      ensures outcome.NotFound? <==> Authorize(old(rows), user, id).NotFound?
      ensures outcome.Forbidden? <==> Authorize(old(rows), user, id).Forbidden?
      ensures !outcome.Allowed? ==> rows == old(rows)
      ensures outcome.Allowed? ==>
                var i := Authorize(old(rows), user, id).value;
                outcome.value == old(rows)[i] && rows == old(rows)[..i] + old(rows)[i + 1..]
    {
      var auth := Authorize(rows, user, id);
      if !auth.Allowed? {
        return if auth.NotFound? then NotFound else Forbidden;
      }
      var i := auth.value;
      outcome := Allowed(rows[i]);
      ghost var before := rows;
      rows := rows[..i] + rows[i + 1..];
      assert forall j :: 0 <= j < |rows| ==> rows[j] == if j < i then before[j] else before[j + 1];
    }
  }
}

=== FILE: chat_client.dfy ===
/**
 * The agent chat page's submit handler: the conversation history and the
 * busy flag it keeps, the request it posts, and how it consumes the SSE
 * response line by line. Only state is modelled; the page's DOM is not.
 */
module ChatClient {
  import opened Prelude
  import opened Sse

  datatype Role = UserRole | AssistantRole

  /** One entry of `conversationHistory`. */
  datatype Turn = Turn(role: Role, content: string)

  /** The JSON body posted to the chat endpoint. */
  datatype ChatRequest = ChatRequest(message: string, history: seq<Turn>)

  /**
   * What `JSON.parse` makes of the text after `data: `: a frame, a value with
   * no recognised `type`, or a failure (invalid JSON, or `null`, whose `type`
   * cannot be read), which throws.
   */
  datatype Payload = Malformed | Unrecognised | Parsed(frame: Frame)

  /** How `fetch` ends: it rejects, or it resolves with a status and the body chunks the reader delivers. */
  datatype Reply = FetchFailed | HttpResponse(ok: bool, chunks: seq<string>)

  /** The characters `String.prototype.trim` removes: ECMAScript white space and line terminators. */
  const JsSpaces: set<char> := {
    '\t', '\n', '\U{B}', '\U{C}', '\r', ' ', '\U{A0}', '\U{1680}',
    '\U{2000}', '\U{2001}', '\U{2002}', '\U{2003}', '\U{2004}', '\U{2005}',
    '\U{2006}', '\U{2007}', '\U{2008}', '\U{2009}', '\U{200A}',
    '\U{2028}', '\U{2029}', '\U{202F}', '\U{205F}', '\U{3000}', '\U{FEFF}' }

  predicate IsJsSpace(c: char) {
    c in JsSpaces
  }

  predicate AllSpace(s: string) {
    forall i :: 0 <= i < |s| ==> IsJsSpace(s[i])
  }

  function TrimStart(s: string): (r: string)
    ensures |r| <= |s| && r == s[|s| - |r|..]
    ensures r == [] || !IsJsSpace(r[0])
    ensures AllSpace(s[..|s| - |r|])
  {
    if s != [] && IsJsSpace(s[0]) then
      var r := TrimStart(s[1..]);
      assert s[..|s| - |r|] == [s[0]] + s[1..][..|s| - 1 - |r|];
      r
    else s
  }

  function TrimEnd(s: string): (r: string)
    ensures |r| <= |s| && r == s[..|r|]
    ensures r == [] || !IsJsSpace(r[|r| - 1])
    ensures AllSpace(s[|r|..])
  {
    if s != [] && IsJsSpace(s[|s| - 1]) then
      var r := TrimEnd(s[..|s| - 1]);
      assert s[|r|..] == s[..|s| - 1][|r|..] + [s[|s| - 1]];
      r
    else s
  }

  /** `value.trim()`: no white space at either end. */
  function Trim(s: string): (r: string)
    ensures |r| <= |TrimStart(s)|
    ensures r == [] || (!IsJsSpace(r[0]) && !IsJsSpace(r[|r| - 1]))
  {
    var t := TrimStart(s);
    var r := TrimEnd(t);
    assert r != [] ==> r[0] == t[0];
    r
  }

  /** The trimmed text is a slice of the input, and only white space is cut off on either side. */
  lemma TrimIsSlice(s: string)
    ensures var r, a := Trim(s), |s| - |TrimStart(s)|;
      r == s[a..a + |r|] && AllSpace(s[..a]) && AllSpace(s[a + |r|..])
  {
    var t := TrimStart(s);
    var r := TrimEnd(t);
    var a := |s| - |t|;
    assert t == s[a..];
    assert s[a + |r|..] == t[|r|..];
  }

  /** Trimming twice trims nothing more, and a message is blank exactly when it is all white space. */
  lemma TrimFacts(s: string)
    ensures Trim(Trim(s)) == Trim(s)
    ensures Trim(s) == [] <==> AllSpace(s)
  {
    var r := Trim(s);
    TrimIsSlice(s);
    if r == [] {
      assert TrimStart(s) == [];
      assert s[..|s|] == s;
    } else {
      assert TrimStart(r) == r;
      assert TrimEnd(r) == r;
      var a := |s| - |TrimStart(s)|;
      assert s[a] == r[0];
    }
  }

  /** Joins lines with "\n"; the inverse of `Split`. */
  function Join(lines: seq<string>): string
    requires |lines| >= 1
  {
    if |lines| == 1 then lines[0] else lines[0] + "\n" + Join(lines[1..])
  }

  /** `chunk.split('\n')`: the pieces between newlines, always at least one. */
  function Split(s: string): (lines: seq<string>)
    ensures |lines| >= 1
    ensures forall i :: 0 <= i < |lines| ==> '\n' !in lines[i]
  {
    if s == [] then [""]
    else
      var rest := Split(s[1..]);
      if s[0] == '\n' then [""] + rest
      else [[s[0]] + rest[0]] + rest[1..]
  }

  /** Splitting then joining gives the chunk back. */
  lemma {:induction false} JoinSplit(s: string)
    ensures Join(Split(s)) == s
  {
    if s != [] {
      var rest := Split(s[1..]);
      JoinSplit(s[1..]);
      if s[0] == '\n' {
        assert ([""] + rest)[1..] == rest;
      } else {
        var lines := [[s[0]] + rest[0]] + rest[1..];
        assert lines[1..] == rest[1..];
        if |rest| > 1 {
          assert Join(rest) == rest[0] + "\n" + Join(rest[1..]);
        }
        assert s == [s[0]] + s[1..];
      }
    }
  }

  /** Joining lines without newlines then splitting gives the lines back. */
  lemma {:induction false} SplitJoin(lines: seq<string>)
    requires |lines| >= 1
    requires forall i :: 0 <= i < |lines| ==> '\n' !in lines[i]
    ensures Split(Join(lines)) == lines
  {
    if |lines| == 1 {
      SplitNoNewline(lines[0]);
    } else {
      SplitJoin(lines[1..]);
      SplitAfterNewline(lines[0], Join(lines[1..]));
      SplitNoNewline(lines[0]);
      assert lines == [lines[0]] + lines[1..];
    }
  }

  lemma {:induction false} SplitNoNewline(s: string)
    requires '\n' !in s
    ensures Split(s) == [s]
  {
    if s != [] {
      assert s == [s[0]] + s[1..];
      SplitNoNewline(s[1..]);
    }
  }

  /** Text up to the first newline is the first line; the rest splits on its own. */
  lemma {:induction false} SplitAfterNewline(a: string, b: string)
    requires '\n' !in a
    ensures Split(a + "\n" + b) == [a] + Split(b)
  {
    if a == [] {
      assert a + "\n" + b == "\n" + b;
      assert ("\n" + b)[1..] == b;
    } else {
      assert (a + "\n" + b)[1..] == a[1..] + "\n" + b;
      assert a == [a[0]] + a[1..];
      SplitAfterNewline(a[1..], b);
    }
  }

  /** The handler's state during one submit: history, busy flag, `assistantResponse`, and whether it has thrown. */
  datatype TurnState = TurnState(history: seq<Turn>, isProcessing: bool, response: string, thrown: bool)

  /** The `if` chain on `data.type`. */
  function ApplyFrame(st: TurnState, f: Frame): (next: TurnState)
    ensures !next.thrown <==> !st.thrown
    ensures f.Delta? ==> next == st.(response := st.response + f.text)
    ensures f.Done? ==> next == st.(history := st.history + [Turn(AssistantRole, st.response)], isProcessing := false)
    ensures f.Error? ==> next == st.(isProcessing := false)
    ensures f.Test? || f.ToolCallFrame? || f.ToolResultFrame? ==> next == st
  {
    match f
    case Delta(t) => st.(response := st.response + t)
    case Done(_) => st.(history := st.history + [Turn(AssistantRole, st.response)], isProcessing := false)
    case Error(_) => st.(isProcessing := false)
    case _ => st
  }

  const DataPrefix := "data: "

  predicate IsDataLine(line: string) {
    |line| >= |DataPrefix| && line[..|DataPrefix|] == DataPrefix
  }

  /** One line: only `data: ` lines are parsed, from offset 6; a parse failure throws. */
  function ApplyLine(st: TurnState, line: string, parse: string -> Payload): (next: TurnState)
    ensures !IsDataLine(line) ==> next == st
  {
    if !IsDataLine(line) then st
    else match parse(line[|DataPrefix|..])
      case Malformed => st.(thrown := true)
      case Unrecognised => st
      case Parsed(f) => ApplyFrame(st, f)
  }

  /** The `for (const line of lines)` loop; once the handler has thrown, no line is looked at. */
  function ApplyLines(st: TurnState, lines: seq<string>, parse: string -> Payload): TurnState
    decreases lines
  {
    if lines == [] || st.thrown then st else ApplyLines(ApplyLine(st, lines[0], parse), lines[1..], parse)
  }

  lemma {:induction false} ApplyLinesAppend(st: TurnState, a: seq<string>, b: seq<string>, parse: string -> Payload)
    ensures ApplyLines(st, a + b, parse) == ApplyLines(ApplyLines(st, a, parse), b, parse)
    decreases a
  {
    if a == [] {
      assert a + b == b;
    } else if !st.thrown {
      assert (a + b)[0] == a[0];
      assert (a + b)[1..] == a[1..] + b;
      ApplyLinesAppend(ApplyLine(st, a[0], parse), a[1..], b, parse);
    } else {
      ThrownAbsorbsLines(st, b, parse);
    }
  }

  lemma {:induction false} ThrownAbsorbsLines(st: TurnState, lines: seq<string>, parse: string -> Payload)
    requires st.thrown
    ensures ApplyLines(st, lines, parse) == st
  {
  }

  /** The `while (true)` read loop: each chunk is split and its lines handled in order. */
  function ApplyChunks(st: TurnState, chunks: seq<string>, parse: string -> Payload): TurnState
    decreases chunks
  {
    if chunks == [] then st else ApplyChunks(ApplyLines(st, Split(chunks[0]), parse), chunks[1..], parse)
  }

  lemma {:induction false} ApplyChunksAppend(st: TurnState, a: seq<string>, b: seq<string>, parse: string -> Payload)
    ensures ApplyChunks(st, a + b, parse) == ApplyChunks(ApplyChunks(st, a, parse), b, parse)
    decreases a
  {
    if a == [] {
      assert a + b == b;
    } else {
      assert (a + b)[0] == a[0];
      assert (a + b)[1..] == a[1..] + b;
      ApplyChunksAppend(ApplyLines(st, Split(a[0]), parse), a[1..], b, parse);
    }
  }

  lemma {:induction false} ThrownAbsorbsChunks(st: TurnState, chunks: seq<string>, parse: string -> Payload)
    requires st.thrown
    ensures ApplyChunks(st, chunks, parse) == st
    decreases chunks
  {
    if chunks != [] {
      ThrownAbsorbsLines(st, Split(chunks[0]), parse);
      ThrownAbsorbsChunks(st, chunks[1..], parse);
    }
  }

  /** The page state between submits. */
  datatype PageState = PageState(history: seq<Turn>, isProcessing: bool)

  /** The state right after an accepted submit: the user turn appended, busy, nothing received yet. */
  function TurnStart(history: seq<Turn>, message: string): TurnState {
    TurnState(history + [Turn(UserRole, message)], true, "", false)
  }

  /**
   * The page state once the handler has run to completion for an accepted
   * message: a rejected fetch, a non-OK status and anything thrown while
   * reading end in the catch block, which clears the busy flag.
   */
  function RunTurn(history: seq<Turn>, message: string, reply: Reply, parse: string -> Payload): PageState {
    match reply
    case FetchFailed => PageState(history + [Turn(UserRole, message)], false)
    case HttpResponse(ok, chunks) =>
      if !ok then PageState(history + [Turn(UserRole, message)], false)
      else
        var st := ApplyChunks(TurnStart(history, message), chunks, parse);
        PageState(st.history, if st.thrown then false else st.isProcessing)
  }

  /** Every turn appended after the user turn is an assistant turn. */
  predicate OnlyAssistant(turns: seq<Turn>) {
    forall i :: 0 <= i < |turns| ==> turns[i].role == AssistantRole
  }

  lemma {:induction false} LinesOnlyAppendAssistant(st: TurnState, lines: seq<string>, parse: string -> Payload)
    ensures var next := ApplyLines(st, lines, parse);
      |next.history| >= |st.history| && next.history[..|st.history|] == st.history
      && OnlyAssistant(next.history[|st.history|..])
    decreases lines
  {
    if lines != [] && !st.thrown {
      var mid := ApplyLine(st, lines[0], parse);
      LinesOnlyAppendAssistant(mid, lines[1..], parse);
      var next := ApplyLines(mid, lines[1..], parse);
      assert mid.history == st.history || mid.history == st.history + [Turn(AssistantRole, st.response)];
      assert next.history[..|mid.history|] == mid.history;
      assert next.history[..|st.history|] == mid.history[..|st.history|];
      forall i | |st.history| <= i < |next.history|
        ensures next.history[i].role == AssistantRole
      {
        if i >= |mid.history| {
          assert next.history[i] == next.history[|mid.history|..][i - |mid.history|];
        }
      }
    }
  }

  lemma {:induction false} ChunksOnlyAppendAssistant(st: TurnState, chunks: seq<string>, parse: string -> Payload)
    ensures var next := ApplyChunks(st, chunks, parse);
      |next.history| >= |st.history| && next.history[..|st.history|] == st.history
      && OnlyAssistant(next.history[|st.history|..])
    decreases chunks
  {
    if chunks != [] {
      var mid := ApplyLines(st, Split(chunks[0]), parse);
      LinesOnlyAppendAssistant(st, Split(chunks[0]), parse);
      ChunksOnlyAppendAssistant(mid, chunks[1..], parse);
      var next := ApplyChunks(mid, chunks[1..], parse);
      assert next.history[..|st.history|] == mid.history[..|st.history|];
      forall i | |st.history| <= i < |next.history|
        ensures next.history[i].role == AssistantRole
      {
        if i >= |mid.history| {
          assert next.history[i] == next.history[|mid.history|..][i - |mid.history|];
        } else {
          assert next.history[i] == mid.history[i] == mid.history[|st.history|..][i - |st.history|];
        }
      }
    }
  }

  /**
   * History only grows during a turn: the old history, then the user turn,
   * then assistant turns only; a rejected fetch or a non-OK status adds the
   * user turn alone and frees the page.
   */
  lemma TurnAppendsUserThenAssistants(history: seq<Turn>, message: string, reply: Reply, parse: string -> Payload)
    ensures var after := RunTurn(history, message, reply, parse);
      var user := history + [Turn(UserRole, message)];
      && |after.history| >= |user| && after.history[..|user|] == user
      && OnlyAssistant(after.history[|user|..])
      && (reply.FetchFailed? || !reply.ok ==> after == PageState(user, false))
  {
    if reply.HttpResponse? && reply.ok {
      ChunksOnlyAppendAssistant(TurnStart(history, message), reply.chunks, parse);
    }
  }

  /** The chat page: the module-level `conversationHistory` and `isProcessing`. */
  class ChatPage {
    var history: seq<Turn>
    var isProcessing: bool

    constructor ()
      ensures history == [] && !isProcessing
    {
      history, isProcessing := [], false;
    }

    /** The body of the line loop: the `data.type` dispatch on one line. */
    method HandleLine(line: string, parse: string -> Payload, response: string, thrown: bool)
      returns (response': string, thrown': bool)
      requires !thrown
      modifies this
      ensures TurnState(history, isProcessing, response', thrown')
              == ApplyLine(TurnState(old(history), old(isProcessing), response, thrown), line, parse)
    {
      response', thrown' := response, thrown;
      if IsDataLine(line) {
        match parse(line[|DataPrefix|..]) {
          case Malformed =>
            thrown' := true;
          case Unrecognised =>
          case Parsed(f) =>
            match f {
              case Delta(t) =>
                response' := response + t;
              case Done(_) =>
                history := history + [Turn(AssistantRole, response)];
                isProcessing := false;
              case Error(_) =>
                isProcessing := false;
              case _ =>
            }
        }
      }
    }

    /** The `for (const line of lines)` loop over one chunk, stopping at the first throw. */
    method ReadLines(lines: seq<string>, parse: string -> Payload, response: string) returns (response': string, thrown: bool)
      modifies this
      ensures TurnState(history, isProcessing, response', thrown)
              == ApplyLines(TurnState(old(history), old(isProcessing), response, false), lines, parse)
    {
      ghost var before := TurnState(history, isProcessing, response, false);
      response', thrown := response, false;
      var j := 0;
      while j < |lines| && !thrown
        invariant 0 <= j <= |lines|
        invariant TurnState(history, isProcessing, response', thrown) == ApplyLines(before, lines[..j], parse)
      {
        var line := lines[j];
        ApplyLinesAppend(before, lines[..j], [line], parse);
        assert lines[..j + 1] == lines[..j] + [line];
        response', thrown := HandleLine(line, parse, response', thrown);
        j := j + 1;
      }
      ApplyLinesAppend(before, lines[..j], lines[j..], parse);
      assert lines[..j] + lines[j..] == lines;
      if thrown {
        ThrownAbsorbsLines(TurnState(history, isProcessing, response', thrown), lines[j..], parse);
      }
    }

    /** The `while (true)` loop over the chunks the reader delivers, stopping at the first throw. */
    method ReadBody(chunks: seq<string>, parse: string -> Payload) returns (response: string, thrown: bool)
      modifies this
      ensures TurnState(history, isProcessing, response, thrown)
              == ApplyChunks(TurnState(old(history), old(isProcessing), "", false), chunks, parse)
    {
      ghost var start := TurnState(history, isProcessing, "", false);
      response, thrown := "", false;
      var c := 0;
      while c < |chunks| && !thrown
        invariant 0 <= c <= |chunks|
        invariant TurnState(history, isProcessing, response, thrown) == ApplyChunks(start, chunks[..c], parse)
      {
        response, thrown := ReadLines(Split(chunks[c]), parse, response);
        ApplyChunksAppend(start, chunks[..c], [chunks[c]], parse);
        assert chunks[..c + 1] == chunks[..c] + [chunks[c]];
        c := c + 1;
      }
      ApplyChunksAppend(start, chunks[..c], chunks[c..], parse);
      assert chunks[..c] + chunks[c..] == chunks;
      if thrown {
        ThrownAbsorbsChunks(TurnState(history, isProcessing, response, thrown), chunks[c..], parse);
      }
    }

    /**
     * The submit handler, run to completion for one submit. `inputValue` is
     * the text box, `reply` what `fetch` and the reader deliver, and `parse`
     * the JSON parser. A busy page or a blank message changes nothing and
     * posts nothing.
     */
    method Submit(inputValue: string, reply: Reply, parse: string -> Payload) returns (request: Option<ChatRequest>)
      modifies this
      ensures old(isProcessing) || Trim(inputValue) == [] ==>
        request == None && history == old(history) && isProcessing == old(isProcessing)
      ensures !old(isProcessing) && Trim(inputValue) != [] ==>
        && request == Some(ChatRequest(Trim(inputValue), old(history)))
        && PageState(history, isProcessing) == RunTurn(old(history), Trim(inputValue), reply, parse)
    {
      if isProcessing {
        return None;
      }
      var message := Trim(inputValue);
      if message == [] {
        return None;
      }
      history := history + [Turn(UserRole, message)];
      isProcessing := true;
      request := Some(ChatRequest(message, history[..|history| - 1]));

      if reply.FetchFailed? || !reply.ok {
        isProcessing := false;
        return;
      }
      var response, thrown := ReadBody(reply.chunks, parse);
      if thrown {
        isProcessing := false;
      }
    }
  }
}

=== FILE: demo.dfy ===
/**
 * `OpenRouterDemoController`: the provider/model settings kept in the session,
 * the one-shot text generation endpoint, and the streaming endpoint that
 * relays only text deltas.
 */
module OpenRouterDemo {
  import opened Prelude
  import opened Sse
  import opened Session

  const DemoProvider := "OpenRouter"
  const DemoModel := "qwen/qwen3-235b-a22b:free"
  const MaxPromptLength := 1000

  /** A model identifier and the caption the settings page shows for it. */
  datatype ModelOption = ModelOption(id: string, caption: string)

  /** The models offered for one provider, in display order. */
  datatype ProviderModels = ProviderModels(provider: string, models: seq<ModelOption>)

  /** The catalogue of the settings page, in display order. */
  function AvailableModels(): (catalogue: seq<ProviderModels>)
    ensures |catalogue| == 2
    ensures catalogue[0].provider == "OpenAI" && catalogue[1].provider == "OpenRouter"
  {
    [ ProviderModels("OpenAI", [
        ModelOption("gpt-4o-mini", "GPT-4o Mini (Cheap)"),
        ModelOption("gpt-3.5-turbo", "GPT-3.5 Turbo (Cheap)")]),
      ProviderModels("OpenRouter", [
        ModelOption("qwen/qwen3-235b-a22b:free", "Qwen 235B (Free)"),
        ModelOption("meta-llama/llama-3.2-3b-instruct:free", "Llama 3.2 3B (Free)"),
        ModelOption("microsoft/phi-3-mini-128k-instruct:free", "Phi-3 Mini (Free)"),
        ModelOption("google/gemma-2-9b-it:free", "Gemma 2 9B (Free)")]) ]
  }

  /** The catalogue lists `model` under `provider`. */
  predicate Listed(provider: string, model: string) {
    exists g, m :: g in AvailableModels() && m in g.models && g.provider == provider && m.id == model
  }

  /** `'provider' => 'required|in:OpenAI,OpenRouter'`. */
  predicate ValidProvider(provider: Option<string>) {
    provider.Some? && (provider.value == "OpenAI" || provider.value == "OpenRouter")
  }

  /** The settings form accepts exactly the providers the catalogue shows. */
  lemma {:induction false} ValidProvidersAreCatalogued(p: string)
    ensures ValidProvider(Some(p)) <==> exists g :: g in AvailableModels() && g.provider == p
  {
    var c := AvailableModels();
    if ValidProvider(Some(p)) {
      assert c[if p == "OpenAI" then 0 else 1].provider == p;
    }
  }

  /** `settings`, `textDemo`, `streamDemo`: the stored pair, or OpenRouter / qwen for a missing key. */
  function CurrentSelection(data: SessionData): (sel: Selection)
    ensures ProviderKey in data ==> sel.provider == data[ProviderKey]
    ensures ProviderKey !in data ==> sel.provider == DemoProvider
    ensures ModelKey in data ==> sel.model == data[ModelKey]
    ensures ModelKey !in data ==> sel.model == DemoModel
  {
    Selection(ReadOr(data, ProviderKey, DemoProvider), ReadOr(data, ModelKey, DemoModel))
  }

  /** Before anything is saved, the pages show a pair the catalogue lists. */
  lemma DefaultsAreListed()
    ensures Listed(CurrentSelection(map[]).provider, CurrentSelection(map[]).model)
  {
    var c := AvailableModels();
    assert c[1].models[0] in c[1].models;
  }

  /** The fields of the settings form that fail validation. */
  function SettingsErrors(provider: Option<string>, model: Option<string>): (errors: set<string>)
    ensures errors <= {"provider", "model"}
    ensures "provider" in errors <==> !ValidProvider(provider)
    ensures "model" in errors <==> !Required(model)
  {
    (if ValidProvider(provider) then {} else {"provider"}) + (if Required(model) then {} else {"model"})
  }

  /** The outcome of `saveSettings`: saved and redirected back, or sent back with the failing fields. */
  datatype SaveOutcome = Saved | Rejected(fields: set<string>)

  /** `saveSettings`: a rejected form changes nothing; an accepted one writes both keys. */
  method SaveSettings(session: Store, provider: Option<string>, model: Option<string>) returns (outcome: SaveOutcome)
    modifies session
    ensures outcome.Rejected? <==> SettingsErrors(provider, model) != {}
    ensures outcome.Rejected? ==> outcome.fields == SettingsErrors(provider, model) && session.data == old(session.data)
    ensures outcome.Saved? ==>
      session.data == old(session.data)[ProviderKey := provider.value][ModelKey := model.value]
  {
    var errors := SettingsErrors(provider, model);
    if errors != {} {
      return Rejected(errors);
    }
    session.PutSelection(Selection(provider.value, model.value));
    outcome := Saved;
  }

  /** What an accepted save wrote is what every demo page then shows, and its provider is catalogued. */
  lemma SaveThenRead(data: SessionData, provider: Option<string>, model: Option<string>)
    requires SettingsErrors(provider, model) == {}
    ensures var saved := data[ProviderKey := provider.value][ModelKey := model.value];
      && CurrentSelection(saved) == Selection(provider.value, model.value)
      && exists g :: g in AvailableModels() && g.provider == CurrentSelection(saved).provider
  {
    ValidProvidersAreCatalogued(provider.value);
  }

  /** The form checks the provider only: a model from another provider's list is accepted for OpenAI. */
  lemma SaveAcceptsUncataloguedPair()
    ensures var provider, model := "OpenAI", "qwen/qwen3-235b-a22b:free";
      SettingsErrors(Some(provider), Some(model)) == {} && !Listed(provider, model)
  {
    var model := "qwen/qwen3-235b-a22b:free";
    assert !IsPhpTrimChar(model[0]);
    var c := AvailableModels();
    assert forall m :: m in c[0].models ==> m.id != model;
  }

  /** `'prompt' => 'required|string|max:1000'`. */
  predicate ValidPrompt(prompt: Option<string>) {
    Required(prompt) && |prompt.value| <= MaxPromptLength
  }

  /** What both generation endpoints hand to the upstream call. */
  datatype TextCall = TextCall(provider: Provider, model: string, prompt: string)

  /** The call for the session's selection: OpenAI only for the exact name "OpenAI", OpenRouter for anything else. */
  function RequestFor(data: SessionData, prompt: string): (call: TextCall)
    ensures call.model == CurrentSelection(data).model && call.prompt == prompt
    ensures call.provider == OpenAI <==> CurrentSelection(data).provider == "OpenAI"
  {
    var sel := CurrentSelection(data);
    TextCall(ProviderFor(sel.provider), sel.model, prompt)
  }

  /** Token counts the upstream reports. */
  datatype Usage = Usage(promptTokens: nat, completionTokens: nat)

  /** A completed generation. */
  datatype Generated = Generated(text: string, usage: Usage)

  /** The JSON body: `success: true` with text and usage, or `success: false` with the error. */
  datatype TextBody = TextOk(text: string, usage: Usage) | TextFailed(error: string)

  /** The response of `generateText`. */
  datatype TextResponse = PromptRejected | Json(status: nat, body: TextBody)

  /**
   * `generateText`. `generate` is the upstream generation call: what it
   * returns for a request, or the message of the exception it throws.
   */
  function GenerateText(data: SessionData, prompt: Option<string>, generate: TextCall -> Result<Generated, string>): (r: TextResponse)
    ensures r.PromptRejected? <==> !ValidPrompt(prompt)
    ensures r.Json? ==> (r.status == 200 <==> r.body.TextOk?) && (r.status == 500 <==> r.body.TextFailed?)
    ensures r.Json? ==>
      match generate(RequestFor(data, prompt.value))
      case Success(g) => r.body == TextOk(g.text, g.usage)
      case Failure(m) => r.body == TextFailed(m)
  {
    if !ValidPrompt(prompt) then PromptRejected
    else match generate(RequestFor(data, prompt.value))
      case Success(g) => Json(200, TextOk(g.text, g.usage))
      case Failure(m) => Json(500, TextFailed(m))
  }

  /** The response of `generateStream`. */
  datatype StreamResponse = StreamRejected | EventStream(frames: seq<Frame>)

  predicate IsTextDelta(e: Event) {
    e.TextDelta?
  }

  /** One `delta` frame per text-delta event, in order; every other event is dropped. */
  function DeltaFrames(events: seq<Event>): (frames: seq<Frame>)
    ensures |frames| <= |events|
    ensures forall i :: 0 <= i < |frames| ==> frames[i].Delta?
    ensures DeltaTexts(frames) == EventText(events)
  {
    if events == [] then []
    else
      var rest := DeltaFrames(events[1..]);
      if events[0].TextDelta? then
        assert ([Delta(events[0].delta)] + rest)[1..] == rest;
        [Delta(events[0].delta)] + rest
      else rest
  }

  /** Frame i is the `delta` of the i-th event of `deltas`, carrying that event's own text. */
  predicate CarriesEach(frames: seq<Frame>, deltas: seq<Event>) {
    |frames| == |deltas| && forall i :: 0 <= i < |frames| ==> deltas[i].TextDelta? && frames[i] == Delta(deltas[i].delta)
  }

  lemma CarriesEachCons(e: Event, frames: seq<Frame>, deltas: seq<Event>)
    requires e.TextDelta? && CarriesEach(frames, deltas)
    ensures CarriesEach([Delta(e.delta)] + frames, [e] + deltas)
  {
    var f, d := [Delta(e.delta)] + frames, [e] + deltas;
    forall i | 0 < i < |f|
      ensures d[i].TextDelta? && f[i] == Delta(d[i].delta)
    {
      assert d[i] == deltas[i - 1] && f[i] == frames[i - 1];
    }
  }

  /** One `delta` frame per text-delta event, in order, each carrying that event's own text. */
  lemma {:induction false} DeltaFramesPointwise(events: seq<Event>)
    ensures CarriesEach(DeltaFrames(events), FilterSeq(events, IsTextDelta))
  {
    if events != [] {
      DeltaFramesPointwise(events[1..]);
      FilterSeqCons(events, IsTextDelta);
      if events[0].TextDelta? {
        CarriesEachCons(events[0], DeltaFrames(events[1..]), FilterSeq(events[1..], IsTextDelta));
      } else {
        assert FilterSeq(events, IsTextDelta) == [] + FilterSeq(events[1..], IsTextDelta);
      }
    }
  }

  lemma {:induction false} DeltaFramesAppend(a: seq<Event>, b: seq<Event>)
    ensures DeltaFrames(a + b) == DeltaFrames(a) + DeltaFrames(b)
  {
    if a == [] {
      assert a + b == b;
    } else {
      assert (a + b)[0] == a[0];
      assert (a + b)[1..] == a[1..] + b;
      DeltaFramesAppend(a[1..], b);
    }
  }

  /** Everything the streaming endpoint writes: the deltas, then `done` with no payload or `error`. */
  function DemoStream(script: Script): seq<Frame> {
    DeltaFrames(script.events) + [match script.ending
                                  case Exhausted => Done(None)
                                  case Fault(m) => Error(m)]
  }

  /**
   * The demo relay's frame contract: only `delta` frames and then exactly one
   * terminal frame; no `test`, tool or accumulated-text frame; the deltas
   * carry the whole streamed text.
   */
  lemma DemoStreamShape(script: Script)
    ensures var s := DemoStream(script);
      && WellTerminated(s)
      && (forall i :: 0 <= i < |s| - 1 ==> s[i].Delta?)
      && DeltaTexts(s) == EventText(script.events)
      && (script.ending.Exhausted? <==> s[|s| - 1] == Done(None))
      && (script.ending.Fault? ==> s[|s| - 1] == Error(script.ending.message))
  {
    var s := DemoStream(script);
    var d := DeltaFrames(script.events);
    assert s[..|s| - 1] == d;
    DeltaTextsAppend(d, [s[|s| - 1]]);
    assert [s[|s| - 1]][1..] == [];
  }

  /**
   * `generateStream`: validation, then the relay loop over the upstream
   * events and the terminal frame.
   */
  method GenerateStream(data: SessionData, prompt: Option<string>, upstream: Script)
    returns (response: StreamResponse, call: Option<TextCall>)
    ensures !ValidPrompt(prompt) ==> response == StreamRejected && call == None
    ensures ValidPrompt(prompt) ==>
      response == EventStream(DemoStream(upstream)) && call == Some(RequestFor(data, prompt.value))
  {
    if !ValidPrompt(prompt) {
      return StreamRejected, None;
    }
    call := Some(RequestFor(data, prompt.value));
    var frames := [];
    var i := 0;
    while i < |upstream.events|
      invariant 0 <= i <= |upstream.events|
      invariant frames == DeltaFrames(upstream.events[..i])
    {
      var e := upstream.events[i];
      assert upstream.events[..i + 1] == upstream.events[..i] + [e];
      DeltaFramesAppend(upstream.events[..i], [e]);
      assert [e][1..] == [];
      if e.TextDelta? {
        frames := frames + [Delta(e.delta)];
      }
      i := i + 1;
    }
    assert upstream.events[..i] == upstream.events;
    match upstream.ending {
      case Exhausted =>
        frames := frames + [Done(None)];
      case Fault(m) =>
        frames := frames + [Error(m)];
    }
    response := EventStream(frames);
  }
}

=== FILE: end_to_end.dfy ===
/**
 * Properties that span the server and the browser: what the chat page holds
 * after reading the agent's stream, what the agent makes of the history the
 * page posts, and how the agent and the demo pages share the session's
 * provider/model pair.
 */
module EndToEnd {
  import opened Prelude
  import opened Sse
  import opened Session
  import Agent
  import OpenRouterDemo
  import ChatClient

  /** The state after the page has handled the frames in order. */
  function ApplyFrames(st: ChatClient.TurnState, frames: seq<Frame>): ChatClient.TurnState
    decreases frames
  {
    if frames == [] then st else ApplyFrames(ChatClient.ApplyFrame(st, frames[0]), frames[1..])
  }

  lemma {:induction false} ApplyFramesAppend(st: ChatClient.TurnState, a: seq<Frame>, b: seq<Frame>)
    ensures ApplyFrames(st, a + b) == ApplyFrames(ApplyFrames(st, a), b)
    decreases a
  {
    if a == [] {
      assert a + b == b;
    } else {
      assert (a + b)[0] == a[0];
      assert (a + b)[1..] == a[1..] + b;
      ApplyFramesAppend(ChatClient.ApplyFrame(st, a[0]), a[1..], b);
    }
  }

  /** Frames other than `done` and `error` only add their delta texts to the response. */
  lemma {:induction false} QuietFramesOnlyAddText(st: ChatClient.TurnState, frames: seq<Frame>)
    requires forall i :: 0 <= i < |frames| ==> !IsTerminal(frames[i])
    ensures ApplyFrames(st, frames) == st.(response := st.response + DeltaTexts(frames))
    decreases frames
  {
    if frames != [] {
      var mid := ChatClient.ApplyFrame(st, frames[0]);
      QuietFramesOnlyAddText(mid, frames[1..]);
      assert mid == st.(response := st.response + (if frames[0].Delta? then frames[0].text else ""));
    }
  }

  /** The JSON encoder and parser agree, and an encoded frame fits on one line. */
  ghost predicate Codec(encode: Frame -> string, parse: string -> ChatClient.Payload) {
    forall f :: parse(encode(f)) == ChatClient.Parsed(f) && '\n' !in encode(f)
  }

  /** The lines of the wire text of `[f] + rest`: the frame's data line, a blank line, then the rest. */
  lemma FrameLines(f: Frame, rest: seq<Frame>, encode: Frame -> string)
    requires '\n' !in encode(f)
    ensures ChatClient.Split(Wire([f] + rest, encode))
            == ["data: " + encode(f), ""] + ChatClient.Split(Wire(rest, encode))
  {
    var a := "data: " + encode(f);
    var w := Wire(rest, encode);
    assert ([f] + rest)[1..] == rest;
    assert Wire([f] + rest, encode) == a + "\n" + ("" + "\n" + w);
    assert '\n' !in a by {
      assert forall i :: 0 <= i < |a| ==> a[i] == if i < 6 then "data: "[i] else encode(f)[i - 6];
    }
    ChatClient.SplitAfterNewline(a, "" + "\n" + w);
    ChatClient.SplitAfterNewline("", w);
  }

  /** Reading the wire text of some frames line by line handles exactly those frames, in order. */
  lemma {:induction false} WireDeliversFrames(st: ChatClient.TurnState, frames: seq<Frame>,
                                              encode: Frame -> string, parse: string -> ChatClient.Payload)
    requires Codec(encode, parse) && !st.thrown
    ensures ChatClient.ApplyLines(st, ChatClient.Split(Wire(frames, encode)), parse) == ApplyFrames(st, frames)
    ensures !ApplyFrames(st, frames).thrown
    decreases frames
  {
    if frames == [] {
      assert ChatClient.Split("") == [""];
      assert [""][1..] == [];
    } else {
      var f := frames[0];
      var a := "data: " + encode(f);
      assert frames == [f] + frames[1..];
      FrameLines(f, frames[1..], encode);
      var tail := ChatClient.Split(Wire(frames[1..], encode));
      ChatClient.ApplyLinesAppend(st, [a, ""], tail, parse);
      assert a[..6] == "data: " && a[6..] == encode(f);
      var mid := ChatClient.ApplyFrame(st, f);
      assert ChatClient.ApplyLine(st, a, parse) == mid;
      assert [a, ""][1..] == [""];
      assert ChatClient.ApplyLines(st, [a, ""], parse) == ChatClient.ApplyLines(mid, [""], parse);
      assert ChatClient.ApplyLines(mid, [""], parse) == mid;
      WireDeliversFrames(mid, frames[1..], encode, parse);
    }
  }

  /** The chunks the reader delivers when each chunk is the wire text of a group of whole frames. */
  function WireChunks(groups: seq<seq<Frame>>, encode: Frame -> string): (chunks: seq<string>)
    ensures |chunks| == |groups|
  {
    if groups == [] then [] else [Wire(groups[0], encode)] + WireChunks(groups[1..], encode)
  }

  function Flatten(groups: seq<seq<Frame>>): seq<Frame> {
    if groups == [] then [] else groups[0] + Flatten(groups[1..])
  }

  /** However whole frames are grouped into chunks, the page handles the frames in order. */
  lemma {:induction false} ChunksDeliverFrames(st: ChatClient.TurnState, groups: seq<seq<Frame>>,
                                               encode: Frame -> string, parse: string -> ChatClient.Payload)
    requires Codec(encode, parse) && !st.thrown
    ensures ChatClient.ApplyChunks(st, WireChunks(groups, encode), parse) == ApplyFrames(st, Flatten(groups))
    ensures !ApplyFrames(st, Flatten(groups)).thrown
    decreases groups
  {
    if groups != [] {
      var chunks := WireChunks(groups, encode);
      WireDeliversFrames(st, groups[0], encode, parse);
      var mid := ApplyFrames(st, groups[0]);
      assert chunks[0] == Wire(groups[0], encode) && chunks[1..] == WireChunks(groups[1..], encode);
      ChunksDeliverFrames(mid, groups[1..], encode, parse);
      ApplyFramesAppend(st, groups[0], Flatten(groups[1..]));
    }
  }

  /**
   * A whole chat turn: when the page reads the agent's stream, it ends not
   * busy, with history grown by the user turn and, if the upstream stream
   * ended normally, exactly one assistant turn whose content is the
   * concatenated text deltas (the `full_response` of the `done` frame); if
   * the upstream faulted, by the user turn alone.
   */
  lemma AgentTurnRoundTrip(history: seq<ChatClient.Turn>, message: string, script: Script, groups: seq<seq<Frame>>,
                           encode: Frame -> string, parse: string -> ChatClient.Payload)
    requires Codec(encode, parse)
    requires Flatten(groups) == Agent.AgentStream(script)
    ensures var after := ChatClient.RunTurn(history, message, ChatClient.HttpResponse(true, WireChunks(groups, encode)), parse);
      var user := history + [ChatClient.Turn(ChatClient.UserRole, message)];
      && !after.isProcessing
      && (script.ending.Exhausted? ==>
            && after.history == user + [ChatClient.Turn(ChatClient.AssistantRole, EventText(script.events))]
            && Agent.AgentStream(script)[|Agent.AgentStream(script)| - 1] == Done(Some(EventText(script.events))))
      && (script.ending.Fault? ==> after.history == user)
  {
    var st0 := ChatClient.TurnStart(history, message);
    ChunksDeliverFrames(st0, groups, encode, parse);
    var t := Agent.Translate(script.events);
    var last := Agent.Terminal(script);
    assert Agent.AgentStream(script) == [Test(Agent.StreamStarted)] + t + [last];
    ApplyFramesAppend(st0, [Test(Agent.StreamStarted)] + t, [last]);
    ApplyFramesAppend(st0, [Test(Agent.StreamStarted)], t);
    assert [Test(Agent.StreamStarted)][1..] == [];
    assert ApplyFrames(st0, [Test(Agent.StreamStarted)]) == st0;
    QuietFramesOnlyAddText(st0, t);
    Agent.TranslateKeepsText(script.events);
    var beforeLast := st0.(response := EventText(script.events));
    assert st0.response + DeltaTexts(t) == DeltaTexts(t);
    assert ApplyFrames(st0, [Test(Agent.StreamStarted)] + t) == beforeLast;
    assert [last][1..] == [];
    assert ApplyFrames(beforeLast, [last]) == ChatClient.ApplyFrame(beforeLast, last);
    assert ApplyFrames(st0, Agent.AgentStream(script)) == ChatClient.ApplyFrame(beforeLast, last);
  }

  /** The JSON the page posts as `history`: every entry has both a role and a content. */
  function ToEntries(turns: seq<ChatClient.Turn>): (entries: seq<Agent.HistoryEntry>)
    ensures |entries| == |turns|
    ensures forall i :: 0 <= i < |turns| ==> entries[i].content == Some(turns[i].content) && entries[i].role.Some?
  {
    seq(|turns|, i requires 0 <= i < |turns| =>
      Agent.HistoryEntry(Some(if turns[i].role == ChatClient.UserRole then "user" else "assistant"), Some(turns[i].content)))
  }

  /** Windowing the posted entries is windowing the turns. */
  lemma WindowOfEntries(turns: seq<ChatClient.Turn>)
    ensures Agent.Window(ToEntries(turns)) == ToEntries(Agent.Window(turns))
  {
    var e, w := ToEntries(turns), Agent.Window(turns);
    var we := Agent.Window(e);
    forall i | 0 <= i < |w|
      ensures we[i] == ToEntries(w)[i]
    {
      assert we[i] == e[|turns| - |w| + i];
      assert w[i] == turns[|turns| - |w| + i];
    }
  }

  /**
   * For history values as the page posts them, no windowed entry lacks
   * content, and the agent turns the last three turns into user messages,
   * the page's assistant turns included.
   */
  lemma PostedHistoryIsAssembled(turns: seq<ChatClient.Turn>, message: string, msgs: seq<Agent.Message>)
    ensures Agent.AllHaveContent(Agent.Window(ToEntries(turns)))
    ensures var w := Agent.Window(turns);
      Agent.IsAssembly(ToEntries(turns), message, msgs) <==>
        && |msgs| == |w| + 1
        && (forall i :: 0 <= i < |w| ==> msgs[i] == Agent.UserMessage(w[i].content))
        && msgs[|w|] == Agent.UserMessage(message)
  {
    WindowOfEntries(turns);
  }

  /** Reading the map the agent's resolution produced, the demo pages' read gives the pair the agent selected. */
  lemma AgentChoiceShownByDemo(data: SessionData)
    ensures OpenRouterDemo.CurrentSelection(Agent.Resolve(data).session) == Agent.Resolve(data).selection
  {
  }

  /**
   * A pair saved on the settings page is the one the agent uses, unless the
   * model is "0": the form accepts it, but the agent counts it as missing and
   * replaces both values with its defaults.
   */
  lemma SavedPairUsedByAgent(data: SessionData, provider: string, model: string)
    requires OpenRouterDemo.SettingsErrors(Some(provider), Some(model)) == {}
    ensures var saved := data[ProviderKey := provider][ModelKey := model];
      && (Agent.Resolve(saved).selection == Selection(provider, model) <==> model != "0")
      && (model == "0" ==> Agent.Resolve(saved).selection == Selection(Agent.DefaultProvider, Agent.DefaultModel))
  {
    var saved := data[ProviderKey := provider][ModelKey := model];
    assert Read(saved, ProviderKey) == Some(provider);
    assert Read(saved, ModelKey) == Some(model);
    assert model != "";
  }
}

=== FILE: prelude.dfy ===
/** Value types and the string and sequence helpers that the PHP controllers rely on. */
module Prelude {

  datatype Option<+T> = None | Some(value: T)

  datatype Result<+T, +E> = Success(value: T) | Failure(error: E)

  /** PHP `substr($s, 0, $n)` and SQL `LIMIT n`: the first min(n, |s|) elements of s. */
  function Take<T>(s: seq<T>, n: nat): (r: seq<T>)
    ensures |r| == if |s| <= n then |s| else n
    ensures r == s[..|r|]
  {
    if |s| <= n then s else s[..n]
  }

  /** The elements of s that satisfy p, in their original order. */
  function FilterSeq<T(!new)>(s: seq<T>, p: T -> bool): (r: seq<T>)
    ensures |r| <= |s|
    ensures forall x :: x in r ==> p(x)
    ensures forall x :: multiset(r)[x] == if p(x) then multiset(s)[x] else 0
  {
    if s == [] then []
    else
      assert s == [s[0]] + s[1..];
      (if p(s[0]) then [s[0]] else []) + FilterSeq(s[1..], p)
  }

  /** Filtering a non-empty sequence: its head, if kept, then the filtered tail. */
  lemma FilterSeqCons<T(!new)>(s: seq<T>, p: T -> bool)
    requires s != []
    ensures FilterSeq(s, p) == (if p(s[0]) then [s[0]] else []) + FilterSeq(s[1..], p)
  {
  }

  /** PHP `empty($s)` on a string: true exactly for "" and "0". */
  predicate PhpEmpty(s: string) {
    s == "" || s == "0"
  }

  /** PHP truthiness of a value that is either null (absent) or a string. */
  predicate PhpFalsy(v: Option<string>) {
    v.None? || PhpEmpty(v.value)
  }

  /** The characters that PHP's `trim` removes by default. */
  predicate IsPhpTrimChar(c: char) {
    c == ' ' || c == '\t' || c == '\n' || c == '\r' || c == '\0' || c == '\U{B}'
  }

  /** Laravel's `required` rule on a string input: present, and not empty once trimmed. */
  predicate Required(v: Option<string>) {
    v.Some? && exists i :: 0 <= i < |v.value| && !IsPhpTrimChar(v.value[i])
  }

  /** The decimal digit for d. */
  function DigitChar(d: nat): (c: char)
    requires d < 10
    ensures '0' <= c <= '9'
  {
    (48 + d) as char
  }

  /** PHP's string conversion of a non-negative integer: decimal, no leading zeros. */
  function Dec(n: nat): (r: string)
    ensures 1 <= |r|
    ensures n < 10 <==> |r| == 1
    ensures forall i :: 0 <= i < |r| ==> '0' <= r[i] <= '9'
  {
    if n < 10 then [DigitChar(n)] else Dec(n / 10) + [DigitChar(n % 10)]
  }

  /** Distinct numbers have distinct decimal strings. */
  lemma {:induction false} DecInjective(a: nat, b: nat)
    requires Dec(a) == Dec(b)
    ensures a == b
  {
    if a >= 10 && b >= 10 {
      var da, db := Dec(a), Dec(b);
      assert da == Dec(a / 10) + [DigitChar(a % 10)];
      assert db == Dec(b / 10) + [DigitChar(b % 10)];
      assert da[..|da| - 1] == Dec(a / 10);
      assert db[..|db| - 1] == Dec(b / 10);
      DecInjective(a / 10, b / 10);
      assert da[|da| - 1] == DigitChar(a % 10);
      assert db[|db| - 1] == DigitChar(b % 10);
    }
  }

  /** The number a string of decimal digits denotes, most significant digit first. */
  function DecValue(s: string): nat
    requires forall i :: 0 <= i < |s| ==> '0' <= s[i] <= '9'
  {
    if s == [] then 0 else DecValue(s[..|s| - 1]) * 10 + ((s[|s| - 1] as int) - ('0' as int))
  }

  /** The decimal string of n denotes n. */
  lemma {:induction false} DecRoundTrip(n: nat)
    ensures DecValue(Dec(n)) == n
  {
    var r := Dec(n);
    if n < 10 {
      assert r[..0] == [];
    } else {
      assert r[..|r| - 1] == Dec(n / 10);
      DecRoundTrip(n / 10);
    }
  }

  /** Leading zeros do not change the number a digit string denotes. */
  lemma {:induction false} LeadingZeros(z: string, s: string)
    requires forall i :: 0 <= i < |z| ==> z[i] == '0'
    requires forall i :: 0 <= i < |s| ==> '0' <= s[i] <= '9'
    ensures DecValue(z + s) == DecValue(s)
    decreases |s|, |z|
  {
    if s == [] {
      assert z + s == z;
      if z != [] {
        LeadingZeros(z[..|z| - 1], []);
        assert z[..|z| - 1] + [] == z[..|z| - 1];
      }
    } else {
      assert (z + s)[..|z + s| - 1] == z + s[..|s| - 1];
      LeadingZeros(z, s[..|s| - 1]);
    }
  }

  function Pow10(k: nat): (p: nat)
    ensures p >= 1
  {
    if k == 0 then 1 else 10 * Pow10(k - 1)
  }

  /** A number below 10^k has at most k decimal digits. */
  lemma {:induction false} DecLength(n: nat, k: nat)
    requires 1 <= k && n < Pow10(k)
    ensures |Dec(n)| <= k
  {
    if n >= 10 {
      assert k >= 2;
      DecLength(n / 10, k - 1);
    }
  }

  /** `n` in decimal, left-padded with zeros to at least `width` digits (PHP date formats `Y`, `m`, `d`). */
  function Pad(n: nat, width: nat): (r: string)
    ensures |r| == if |Dec(n)| < width then width else |Dec(n)|
    ensures r[|r| - |Dec(n)|..] == Dec(n)
    ensures forall i :: 0 <= i < |r| - |Dec(n)| ==> r[i] == '0'
    ensures forall i :: 0 <= i < |r| ==> '0' <= r[i] <= '9'
  {
    if |Dec(n)| < width then seq(width - |Dec(n)|, _ => '0') + Dec(n) else Dec(n)
  }
  /** A padded decimal string still denotes n. */
  lemma PadValue(n: nat, width: nat)
    ensures DecValue(Pad(n, width)) == n
  {
    var r := Pad(n, width);
    var k := |r| - |Dec(n)|;
    assert r == r[..k] + Dec(n);
    LeadingZeros(r[..k], Dec(n));
    DecRoundTrip(n);
  }

}

=== FILE: session.dfy ===
/** The per-user session the controllers share: string keys to string values. */
module Session {
  import opened Prelude

  type SessionData = map<string, string>

  const ProviderKey := "ai_provider"
  const ModelKey := "ai_model"

  /** An LLM provider name and a model identifier. */
  datatype Selection = Selection(provider: string, model: string)

  /** `session($key)`: the stored value, or null when the key is absent. */
  function Read(data: SessionData, key: string): (v: Option<string>)
    ensures v.Some? <==> key in data
    ensures v.Some? ==> v.value == data[key]
  {
    if key in data then Some(data[key]) else None
  }

  /** `session($key, $default)`: the stored value, or the default when the key is absent. */
  function ReadOr(data: SessionData, key: string, default: string): (v: string)
    ensures key in data ==> v == data[key]
    ensures key !in data ==> v == default
  {
    if key in data then data[key] else default
  }

  /** The session store of one user; `session([...])` writes into it in place. */
  class Store {
    var data: SessionData

    constructor (initial: SessionData)
      ensures data == initial
    {
      data := initial;
    }

    /** `session(['ai_provider' => ..., 'ai_model' => ...])`: both keys written, nothing else changed. */
    method PutSelection(sel: Selection)
      modifies this
      ensures data == old(data)[ProviderKey := sel.provider][ModelKey := sel.model]
    {
      data := data[ProviderKey := sel.provider][ModelKey := sel.model];
    }
  }
}

=== FILE: sse.dfy ===
/**
 * The upstream LLM event stream and the server-sent-event frames both relays
 * emit. A frame is modelled as a value; its text on the wire is
 * `data: <json>\n\n`, with the JSON encoder a parameter.
 */
module Sse {
  import opened Prelude

  /** A tool call's arguments, by parameter name. */
  type Arguments = map<string, string>

  /** One event the upstream stream yields. `OtherEvent` covers every other event type. */
  datatype Event =
    | TextDelta(delta: string)
    | ToolCall(name: string, arguments: Arguments)
    | ToolResult(toolName: string, result: string)
    | OtherEvent(kind: string)

  /** How the upstream stream ends once its events are delivered: normally, or by throwing. */
  datatype Ending = Exhausted | Fault(message: string)

  /** A scripted upstream stream: the events it yields, then how it ends. */
  datatype Script = Script(events: seq<Event>, ending: Ending)

  /** One SSE frame; `Done` carries the full response in the agent relay and nothing in the demo relay. */
  datatype Frame =
    | Test(message: string)
    | Delta(text: string)
    | ToolCallFrame(tool: string, arguments: Arguments)
    | ToolResultFrame(tool: string, result: string)
    | Done(fullResponse: Option<string>)
    | Error(error: string)

  /** The upstream provider enumeration. */
  datatype Provider = OpenAI | OpenRouter

  /** `$provider === 'OpenAI' ? Provider::OpenAI : Provider::OpenRouter`. */
  function ProviderFor(name: string): (p: Provider)
    ensures p == OpenAI <==> name == "OpenAI"
  {
    if name == "OpenAI" then OpenAI else OpenRouter
  }

  predicate IsTerminal(f: Frame) {
    f.Done? || f.Error?
  }

  /** Exactly one terminal frame, and it is the last one. */
  predicate WellTerminated(frames: seq<Frame>) {
    && |frames| >= 1
    && IsTerminal(frames[|frames| - 1])
    && forall i :: 0 <= i < |frames| - 1 ==> !IsTerminal(frames[i])
  }

  /** The concatenated texts of the `TextDelta` events, in order. */
  function EventText(events: seq<Event>): string {
    if events == [] then ""
    else (if events[0].TextDelta? then events[0].delta else "") + EventText(events[1..])
  }

  lemma {:induction false} EventTextAppend(a: seq<Event>, b: seq<Event>)
    ensures EventText(a + b) == EventText(a) + EventText(b)
  {
    if a != [] {
      assert (a + b)[1..] == a[1..] + b;
      EventTextAppend(a[1..], b);
    } else {
      assert a + b == b;
    }
  }

  /** The concatenated texts of the `delta` frames, in order. */
  function DeltaTexts(frames: seq<Frame>): string {
    if frames == [] then ""
    else (if frames[0].Delta? then frames[0].text else "") + DeltaTexts(frames[1..])
  }

  lemma {:induction false} DeltaTextsAppend(a: seq<Frame>, b: seq<Frame>)
    ensures DeltaTexts(a + b) == DeltaTexts(a) + DeltaTexts(b)
  {
    if a != [] {
      assert (a + b)[1..] == a[1..] + b;
      DeltaTextsAppend(a[1..], b);
    } else {
      assert a + b == b;
    }
  }

  /** One frame on the wire: `"data: " . json_encode(...) . "\n\n"`. */
  function FrameText(f: Frame, encode: Frame -> string): string {
    "data: " + encode(f) + "\n\n"
  }

  /** The response body for a sequence of frames. */
  function Wire(frames: seq<Frame>, encode: Frame -> string): string {
    if frames == [] then "" else FrameText(frames[0], encode) + Wire(frames[1..], encode)
  }
}
